=== FILE: README.md ===
# SATIM gateway client, modelled in Dafny

This project models the core of a Laravel package that talks to SATIM, the
Algerian card-payment gateway. The HTTP transport is left out. The model
covers four parts:

- **Request data objects.** `RegisterOrderData`, `ConfirmOrderData` and
  `RefundOrderData` normalise their inputs and run a fixed, first-failure-wins
  list of validation rules. Each rule has its own message. `toArray()` builds
  the query parameters, including the `jsonParams` list for registrations.
- **The client.** `SatimClient` merges the credentials with the data and sends
  them to one of three endpoints. It reads the gateway's error code and
  message with key fallback, then throws an authentication, payment or generic
  exception. Which one depends on the endpoint and the code.
- **Response objects.** `fromArray()` on the three response classes reads the
  decoded body. It uses PHP's `??`/`isset`, for which a key holding `null`
  counts as missing. The classes also have status and detail predicates.
- **The builder.** `Satim` is a fluent builder with eleven nullable fields.
  `register()` fills in a generated order number and the default language,
  calls the client, and clears the fields only once the client has returned.
  `confirm()` and `refund()` never touch the fields.

Every operation is a pure function. Exceptions are values of `Result` or
`Outcome`, and the builder is a record-to-record transition. Three things
outside the program become parameters:

- `FILTER_VALIDATE_URL` becomes `validUrl: string -> bool`.
- The HTTP round trip becomes `transport: Request -> Raw`, which takes the
  request and returns the decoded body.
- `random_int` becomes `drawn`, a number from its range.

Files, one module each: `wrappers.dfy`, `php.dfy` (PHP built-ins: `trim`,
`strtoupper`, `empty`, the PCRE patterns used, `%`, decimal rendering, ordered
arrays with `array_merge` and `array_filter`), `json.dfy` (decoded bodies,
`isset`/`??`, scalar coercions), `exceptions.dfy`, `gateway.dfy` (shared
constants and the first-failure rule table), one file per data and response
class, `order_numbers.dfy`, `satim_client.dfy` and `satim.dfy`.

Where the unit tests and the source disagree, the model follows the source:

- Register validation uses the strict rule set: the regular expressions and
  the messages of `src/DTOs/RegisterOrderData.php:63-130`.
- The register language is upper-cased, so `"en"` is stored as `"EN"`.
- A transport failure or an undecodable body is not mapped to any message,
  because the source never does so.

Three properties below come from PHP's own semantics rather than from the
class's intent:

- `MAX_AMOUNT` (twenty nines) is above `PHP_INT_MAX`, so the maximum-amount
  rule can never fire on a PHP `int`. The rule is kept, and
  `RegisterOrderData.MaximumNeverReportedFor64BitAmounts` states that its
  message is never the one reported.
- The response constructors have typed parameters, and PHP's default
  (coercive) mode raises a `TypeError` when a body value cannot be converted.
  Examples are a non-numeric string for `int $errorCode`, or an array for a
  `?string`. The model carries these as `Error.TypeError`, next to the
  thrown `SatimException`s. A non-numeric code thus passes the client's own
  `(int)` check and then fails in `fromArray()`.
- PHP integers are 64-bit. Every PHP `int` the model stores is a
  `Php.PhpInt`: the request amounts, the builder's pending amount, the
  response codes, statuses and amounts, both exception codes, the client's
  timeouts and the integer query parameters. An `int`
  parameter refuses a number or integer string beyond that range, because
  PHP decodes or converts it to a float. The `(int)` cast clamps such a
  string to `PHP_INT_MAX` or `PHP_INT_MIN`, and wraps such a number around
  modulo 2^64.
- On `acknowledgeTransaction.do` the client reads `errorCode` before
  `ErrorCode`, but `ConfirmOrderResponse` reads them the other way round.
  `SatimClient.ConfirmLookupsDisagree` shows a body that passes the client's
  check and is still returned as an unsuccessful response.

## Model

| member | source | states |
|---|---|---|
| Php.Trim | src/DTOs/RegisterOrderData.php:41-55 | `trim` leaves no space, tab, newline, carriage return, NUL or vertical tab at either end, never lengthens the string, and removes only such characters from each end |
| Php.TrimIsSlice | src/DTOs/RegisterOrderData.php:41-55 | `trim` only removes characters from the two ends: the result is a contiguous slice of the input, and everything cut off before or after it is trimmable |
| Php.TrimIdempotent | src/DTOs/RegisterOrderData.php:41-55 | trimming twice is trimming once |
| Php.Upper | src/DTOs/RegisterOrderData.php:45 | `strtoupper` keeps the length and maps each character on its own (ASCII letters only) |
| Php.UpperIdempotent | src/DTOs/RegisterOrderData.php:45 | upper-casing twice is upper-casing once |
| Php.MatchesAlnum | src/DTOs/RegisterOrderData.php:63 | `^[A-Za-z0-9]{lo,hi}$` accepts every string of lo to hi letters and digits; whatever it accepts is lo to hi letters and digits, or such a string followed by one final line feed |
| Php.MatchesDigits | src/DTOs/RegisterOrderData.php:85 | `^\d{lo,hi}$` accepts every string of lo to hi digits; whatever it accepts is lo to hi digits, or such a string followed by one final line feed |
| Php.MatchesAlnumOnTrimmed | src/DTOs/RegisterOrderData.php:63 | on a trimmed string, `^[A-Za-z0-9]{lo,hi}$` holds exactly when the length is in range and every character is an ASCII letter or digit |
| Php.MatchesDigitsOnTrimmed | src/DTOs/RegisterOrderData.php:85 | on a trimmed string, `^\d{3}$` holds exactly when there are three characters and all are digits |
| Php.MatchesAlnumAcceptsFinalNewline | src/DTOs/RegisterOrderData.php:63 | PCRE's `$` also matches before a final newline, so `"A1\n"` passes the order-number pattern though it is not all alphanumerics |
| Php.Wrap | src/Client/SatimClient.php:111 | the 64-bit wrap-around of an integer is congruent to it modulo 2^64 |
| Php.WrapMultiple | src/Client/SatimClient.php:111 | every multiple of 2^64 wraps to 0, and every non-zero one lies outside the 64-bit range |
| Php.Mod | src/DTOs/RegisterOrderData.php:80 | PHP `%` agrees with the mathematical remainder on non-negative amounts and is never positive on negative ones |
| Php.ParseRender | src/Concerns/GeneratesOrderNumbers.php:12 | parsing the decimal rendering of a number gives the number back |
| Php.RenderLength | src/Concerns/GeneratesOrderNumbers.php:12 | a number from 10^k up to 10^(k+1)-1 renders as k+1 digits |
| Php.GetMerge | src/Client/SatimClient.php:39-42 | in `array_merge(a, b)` each key reads as in `b` when `b` has it, else as in `a` |
| Php.Merge | src/Client/SatimClient.php:39-42 | the keys of `array_merge(a, b)` are exactly the keys of a together with the keys of b |
| Php.MergeDisjoint | src/Client/SatimClient.php:39-42 | when the second array shares no key with the first, the merge is the first followed by the second, in order |
| Php.ArrayFilter | src/DTOs/RegisterOrderData.php:141-148 | `array_filter` keeps no empty value and introduces no key; every truthy entry survives with its key and value, and every surviving entry comes from a truthy entry |
| Php.GetArrayFilter | src/DTOs/RegisterOrderData.php:141-148 | after `array_filter` a key reads as its value exactly when that value is truthy (not null, `""` or `"0"`), and is absent otherwise |
| Php.ArrayFilterAppend | src/DTOs/RegisterOrderData.php:141-148 | `array_filter` works entry by entry in order: filtering a concatenation concatenates the filtered parts |
| Php.ArrayFilterOne | src/DTOs/RegisterOrderData.php:141-148 | a single entry survives exactly when its value is truthy, and then unchanged |
| Php.ArrayFilterEntryByEntry | src/DTOs/RegisterOrderData.php:141-148 | `array_filter` equals keeping or dropping each entry in turn, in the original order |
| Php.GetPut | src/DTOs/RegisterOrderData.php:151-157 | writing `$data[k] = v` makes `k` read as `v` and leaves every other key as it was |
| Php.Put | src/DTOs/RegisterOrderData.php:151-157 | `$data[k] = v` appends when `k` is new and keeps the length when it replaces; either way the keys become the old keys plus `k` |
| Json.Coalesce | src/DTOs/ConfirmOrderResponse.php:80-100 | `a ?? b ?? ...` yields the value of the first listed key that is set; a key holding null is skipped; nothing when no key is set |
| Json.CoalesceTwo | src/Client/SatimClient.php:111 | the two-key fallback: the first key when set, else the second when set, else nothing |
| Json.CoalesceOne | src/DTOs/RegisterOrderResponse.php:23-25 | a one-key `$data[k] ?? default` is the value under `k` when it is set and the default otherwise |
| Json.ToInt | src/DTOs/ConfirmOrderResponse.php:84-87 | the `(int)` cast always gives a 64-bit integer: a number in range as it is, one out of range congruent to it modulo 2^64; an integer string in range as its value, out of range clamped to `PHP_INT_MAX` or `PHP_INT_MIN`; a non-numeric string 0; null, booleans, arrays and objects 0 or 1 |
| Json.ToStr | src/DTOs/ConfirmOrderResponse.php:82-100 | the `?string` conversion keeps a string, renders a non-negative integer as a non-empty run of digits, and turns `true` into "1" and `false` into "" |
| Json.Unbound | src/DTOs/ConfirmOrderResponse.php:7-30 | the arguments bind exactly when each value found is one its parameter type takes; otherwise the first refused argument, in declaration order, is named |
| Json.UnboundAt | src/DTOs/ConfirmOrderResponse.php:7-30 | when every argument before i binds and argument i does not, argument i is the one named |
| Json.IntStringRoundTrip | src/DTOs/ConfirmOrderResponse.php:84-87 | the decimal string of a number parses back to it; an `int` parameter takes the string exactly when it takes the number, which is exactly when the number fits in 64 bits; in range both cast to the number, beyond it the string clamps to the nearer bound |
| Exceptions.GettersReturnConstructorArguments | src/Exceptions/SatimException.php:13-32 | the message, gateway code, context and previous cause come back from the getters as given; the built-in exception code is always 0 |
| Exceptions.ConstructorDefaults | src/Exceptions/SatimException.php:13-17 | with only a message, the gateway code is 0 and there is no context and no cause |
| Exceptions.NewException | src/Exceptions/SatimException.php:13-21 | the new exception has built-in code 0 and exactly the given class, message, gateway code, context and previous cause |
| Gateway.FirstFailure | src/DTOs/RegisterOrderData.php:60-131 | a rule table reports nothing exactly when every rule passes, and otherwise the message of the first rule that fails |
| Gateway.FirstFailureAppend | src/DTOs/RegisterOrderData.php:62-130 | scanning one rule table and then another reports what a single scan of both, joined, reports |
| Gateway.FirstFailureAt | src/DTOs/RegisterOrderData.php:60-131 | when every rule before position i passes and rule i fails, rule i's message is reported |
| RegisterOrderData.TrimOptional | src/DTOs/RegisterOrderData.php:49-55 | a null optional stays null; a present one becomes its `trim`, which has no whitespace at either end |
| RegisterOrderData.NormalizeIsNormal | src/DTOs/RegisterOrderData.php:41-55 | after the constructor's assignments every string is trimmed, the language has no lower-case ASCII letter, the amount is kept and exactly the same optionals are null |
| RegisterOrderData.NormalizeFixesNormal | src/DTOs/RegisterOrderData.php:41-55 | the normalisation changes nothing on a record that is already normal, so applying it twice is applying it once |
| RegisterOrderData.UdfViolation | src/DTOs/RegisterOrderData.php:122-130 | the loop over `udf1`..`udf5` reports nothing exactly when each field is null or matches `^[A-Za-z0-9]{1,20}$` |
| RegisterOrderData.UdfChecksAgree | src/DTOs/RegisterOrderData.php:122-130 | the loop reports the same message as the rule table for the user-defined fields |
| RegisterOrderData.Violation | src/DTOs/RegisterOrderData.php:60-131 | `validate()` reports nothing exactly when all sixteen rules hold |
| RegisterOrderData.ScalarViolationIsFirstFailure | src/DTOs/RegisterOrderData.php:62-119 | the eleven checks before the loop report the message of the first of their rules that fails |
| RegisterOrderData.ViolationIsFirstFailure | src/DTOs/RegisterOrderData.php:62-130 | `validate()` reports the first failing rule in the fixed order: order number, amount minimum, maximum, multiple, currency, return URL present, return URL valid, fail URL, description, language, terminal, udf1..udf5 |
| RegisterOrderData.Create | src/DTOs/RegisterOrderData.php:25-58 | construction succeeds exactly when the trimmed, upper-cased record satisfies every rule, and then yields that record; otherwise it throws `new SatimValidationException` with only the first failing rule's message: built-in code 0, gateway code 0, no context and no previous cause |
| RegisterOrderData.CreatedIsWellFormed | src/DTOs/RegisterOrderData.php:63-119 | a constructed record has an order number of 1-10 alphanumerics, an amount of at least 5000 that is a multiple of 100, a three-digit currency, a non-empty valid return URL, a valid fail URL if any, a description of at most 512 characters if any, a language in FR/EN/AR and a terminal id of 1-16 alphanumerics |
| RegisterOrderData.CreatedUdfsWellFormed | src/DTOs/RegisterOrderData.php:121-130 | each user-defined field of a constructed record is null or 1-20 alphanumerics |
| RegisterOrderData.AmountMinimumReportedFirst | src/DTOs/RegisterOrderData.php:69-82 | with a good order number, an amount below 5000 gets the minimum message even when it is also not a multiple of 100 |
| RegisterOrderData.MaximumNeverReportedFor64BitAmounts | src/DTOs/RegisterOrderData.php:74-78 | for every amount, which is a 64-bit PHP integer, neither `validate()` nor the constructor ever reports the maximum-amount message |
| RegisterOrderData.FirstBadUdfReported | src/DTOs/RegisterOrderData.php:122-129 | when everything before user-defined field k holds and field k is bad, the message is "Udf<k> must be alphanumeric and 1-20 characters" |
| RegisterOrderData.DescriptionMeasuredAfterTrim | src/DTOs/RegisterOrderData.php:105-108 | for a given description, the description rule (the ninth) passes exactly when the trimmed description has at most 512 characters, and it carries the description message |
| RegisterOrderData.ToArrayKeys | src/DTOs/RegisterOrderData.php:133-160 | the parameters have distinct keys, none of them a credential key; `failUrl` and `description` appear exactly when they are not null |
| RegisterOrderData.FixedParamsKeys | src/DTOs/RegisterOrderData.php:135-149 | the always-present keys are exactly orderNumber, amount, currency, returnUrl, language and jsonParams |
| RegisterOrderData.ToArrayLayout | src/DTOs/RegisterOrderData.php:133-160 | the parameters are the six fixed entries followed by the non-null optionals, failUrl before description |
| RegisterOrderData.JsonParamsContents | src/DTOs/RegisterOrderData.php:141-148 | `jsonParams` is `force_terminal_id`, `udf1`..`udf5` in that order, each entry present exactly when its value is truthy and then holding that value; so `force_terminal_id` is there exactly when the terminal id is not empty |
| RegisterOrderData.ZeroUdfIsDropped | src/DTOs/RegisterOrderData.php:122-148 | a user-defined field `"0"` passes validation but is silently dropped from `jsonParams` |
| ConfirmOrderData.Violation | src/DTOs/ConfirmOrderData.php:16-32 | `validate()` reports nothing exactly when mdOrder is not empty, the language is not empty and its upper-case form is FR, EN or AR |
| ConfirmOrderData.ViolationIsFirstFailure | src/DTOs/ConfirmOrderData.php:19-31 | the message is that of the first failing rule: mdOrder required, then language required, then language set |
| ConfirmOrderData.Create | src/DTOs/ConfirmOrderData.php:9-14 | construction succeeds exactly when the rules hold and stores the inputs unchanged; otherwise it throws `new SatimValidationException` with only the first failing rule's message: built-in code 0, gateway code 0, no context and no previous cause |
| ConfirmOrderData.EmptyLanguageNeverValid | src/DTOs/ConfirmOrderData.php:24-31 | an empty language (`""` or `"0"`) would fail the language-set rule too; the earlier rule only changes the message |
| ConfirmOrderData.ValidIffCaseInsensitiveLanguage | src/DTOs/ConfirmOrderData.php:16-32 | the data is valid exactly when mdOrder is not empty and the language is FR, EN or AR in any ASCII case |
| ConfirmOrderData.ToArrayContents | src/DTOs/ConfirmOrderData.php:34-40 | the parameters are exactly mdOrder and language, holding the stored values |
| RefundOrderData.Violation | src/DTOs/RefundOrderData.php:16-31 | `validate()` reports nothing exactly when the order id is not empty, the amount is at least 5000 and a multiple of 100 |
| RefundOrderData.ViolationIsFirstFailure | src/DTOs/RefundOrderData.php:19-30 | the message is that of the first failing rule: order id, then minimum, then multiple |
| RefundOrderData.Create | src/DTOs/RefundOrderData.php:9-14 | construction succeeds exactly when the rules hold and stores the inputs unchanged (no trimming); otherwise it throws `new SatimValidationException` with only the first failing rule's message: built-in code 0, gateway code 0, no context and no previous cause |
| RefundOrderData.ValidAmount | src/DTOs/RefundOrderData.php:24-30 | a valid refund amount is at least 5000 and a multiple of 100 |
| RefundOrderData.AmountRulesMatchRegister | src/DTOs/RefundOrderData.php:24-30 | with a non-empty order id, a refund amount is accepted exactly when it satisfies the register amount rules, for every 64-bit amount, since the register maximum lies beyond them all; there is no upper bound of its own |
| RefundOrderData.ToArrayContents | src/DTOs/RefundOrderData.php:33-39 | the parameters are exactly orderId and amount, holding the stored values |
| RegisterOrderResponse.Read | src/DTOs/RegisterOrderResponse.php:20-27 | errorCode is read from `errorCode` only (default 0); orderId and formUrl from their own keys (default null); errorMessage is always null |
| RegisterOrderResponse.FromArray | src/DTOs/RegisterOrderResponse.php:7-27 | `fromArray()` returns the fields read exactly when `int $errorCode`, `?string $orderId` and `?string $formUrl` each take the value found (a 64-bit integer, boolean or integer string for the code); otherwise it is a `TypeError` naming the first that does not |
| RegisterOrderResponse.FromArrayByKey | src/DTOs/RegisterOrderResponse.php:7-27 | the same, key by key: a code that is not a 64-bit integer, boolean or integer string fails first; then an array or object order id; then an array or object form URL |
| RegisterOrderResponse.NonNumericCodeIsTypeError | src/DTOs/RegisterOrderResponse.php:8-23 | a body whose `errorCode` is a non-numeric string raises a `TypeError` on `errorCode`, whatever else it holds |
| RegisterOrderResponse.OutOfRangeCodeIsTypeError | src/DTOs/RegisterOrderResponse.php:8-23 | a body whose `errorCode` lies beyond 64 bits, as a number or a string of digits, raises a `TypeError` on `errorCode` |
| RegisterOrderResponse.RoundTrip | src/DTOs/RegisterOrderResponse.php:20-27 | a body holding a response's code, order id and form URL binds and reads back as that response |
| RegisterOrderResponse.CapitalisedErrorCodeIgnored | src/DTOs/RegisterOrderResponse.php:23 | adding `ErrorCode` to a body changes nothing |
| RegisterOrderResponse.ErrorMessageNeverRead | src/DTOs/RegisterOrderResponse.php:20-27 | an `errorMessage` in the body is ignored |
| RegisterOrderResponse.EmptyBodyIsSuccess | src/DTOs/RegisterOrderResponse.php:15-27 | an empty body binds and reads as code 0 with every optional null, which counts as successful |
| RefundOrderResponse.Read | src/DTOs/RefundOrderResponse.php:18-24 | errorCode is read from `errorCode` (default 0) and errorMessage from `errorMessage` (default null) |
| RefundOrderResponse.FromArray | src/DTOs/RefundOrderResponse.php:7-24 | `fromArray()` returns the fields read exactly when `int $errorCode` and `?string $errorMessage` take the values found (a 64-bit integer, boolean or integer string for the code); otherwise it is a `TypeError` naming the first that does not |
| RefundOrderResponse.FromArrayByKey | src/DTOs/RefundOrderResponse.php:7-24 | the same, key by key: a code that is not a 64-bit integer, boolean or integer string fails first, then an array or object message |
| RefundOrderResponse.OutOfRangeCodeIsTypeError | src/DTOs/RefundOrderResponse.php:8-21 | an `errorCode` beyond 64 bits, as a number or a string of digits, raises a `TypeError` on `errorCode` |
| RefundOrderResponse.ArrayMessageIsTypeError | src/DTOs/RefundOrderResponse.php:9-22 | with a code that binds, an `errorMessage` holding an array raises a `TypeError` on `errorMessage` |
| RefundOrderResponse.RoundTrip | src/DTOs/RefundOrderResponse.php:18-24 | every response survives being written as a body and read back, with no `TypeError` |
| RefundOrderResponse.CapitalisedKeysIgnored | src/DTOs/RefundOrderResponse.php:18-24 | `ErrorCode` and `ErrorMessage` in a body change nothing |
| RefundOrderResponse.EmptyBodyIsSuccess | src/DTOs/RefundOrderResponse.php:13-24 | an empty body binds and reads as (0, null), which counts as successful |
| ConfirmOrderResponse.Read | src/DTOs/ConfirmOrderResponse.php:80-81 | errorCode and orderStatus prefer the capitalised key, fall back to the lower-case one and default to 0 |
| ConfirmOrderResponse.FromArray | src/DTOs/ConfirmOrderResponse.php:7-30 | `fromArray()` returns the fields read exactly when every `??` argument is taken by its parameter (`int` code and status within 64 bits, `?string` texts, `?array` params); otherwise it is a `TypeError` naming the first, in declaration order, that is not |
| ConfirmOrderResponse.NonNumericCodeIsTypeError | src/DTOs/ConfirmOrderResponse.php:8-80 | a non-numeric string under `ErrorCode` raises a `TypeError` on `errorCode`, whatever else the body holds |
| ConfirmOrderResponse.OutOfRangeCodeIsTypeError | src/DTOs/ConfirmOrderResponse.php:8-80 | an `ErrorCode` beyond 64 bits, as a number or a string of digits, raises a `TypeError` on `errorCode` |
| ConfirmOrderResponse.NonNumericStatusIsTypeError | src/DTOs/ConfirmOrderResponse.php:9-81 | with a code that binds, a non-numeric string under `OrderStatus` raises a `TypeError` on `orderStatus` |
| ConfirmOrderResponse.ScalarParamsIsTypeError | src/DTOs/ConfirmOrderResponse.php:27-99 | when every earlier argument binds, a string under `params` raises a `TypeError` on `params` |
| ConfirmOrderResponse.CapitalisedStringsPreferred | src/DTOs/ConfirmOrderResponse.php:82-100 | OrderNumber, Pan, ErrorMessage, Ip, Description and SvfeResponse prefer the capitalised key, fall back to the lower-case one, else null |
| ConfirmOrderResponse.IntegerFieldsCoerced | src/DTOs/ConfirmOrderResponse.php:84-87 | amount comes from `Amount`, then `amount`, cast to a 64-bit int (see Json.ToInt), else null; depositAmount and actionCode are cast when set and null otherwise |
| ConfirmOrderResponse.AuthorizationFallsBackToApprovalCode | src/DTOs/ConfirmOrderResponse.php:92-93 | a missing authorisation id is filled from `approvalCode`, which is also kept in its own field |
| ConfirmOrderResponse.SingleKeyFields | src/DTOs/ConfirmOrderResponse.php:85-99 | the nine fields with one spelling are read from that key, else null |
| ConfirmOrderResponse.CardDetailsFromKeys | src/DTOs/ConfirmOrderResponse.php:62-70 | card details are reported exactly when `Pan`, `pan`, `expiration` or `cardholderName` is set; a binding exactly when `bindingId` is set |
| ConfirmOrderResponse.AtMostOneStatus | src/DTOs/ConfirmOrderResponse.php:37-60 | at most one of isPaid, isPreAuthorized, isDeclined, isRefunded and isReversed holds, and one holds exactly when the status is 1, 2, 3, 4 or 6 |
| ConfirmOrderResponse.NothingSetIsBlank | src/DTOs/ConfirmOrderResponse.php:77-102 | a body in which every key is missing or null reads as code 0, status 0, every optional null: successful, no card details, no binding |
| ConfirmOrderResponse.NothingSetBinds | src/DTOs/ConfirmOrderResponse.php:77-102 | a body in which every key is missing or null (an empty body among them) raises nothing and yields code 0, status 0, every optional null |
| ConfirmOrderResponse.CapitalisedErrorCodeWins | src/DTOs/ConfirmOrderResponse.php:80 | when `ErrorCode` is set, the lower-case `errorCode` is never looked at |
| OrderNumbers.GenerateOrderNumber | src/Concerns/GeneratesOrderNumbers.php:10-13 | the number for a draw from [1000000000, 9999999999] has exactly ten digits, a non-zero first digit, and parses back to the draw |
| OrderNumbers.GenerateInjective | src/Concerns/GeneratesOrderNumbers.php:12 | different draws give different order numbers |
| OrderNumbers.GeneratedNumberIsValidOrderNumber | src/Concerns/GeneratesOrderNumbers.php:12 | a generated number is already trimmed and passes the register order-number pattern `^[A-Za-z0-9]{1,10}$` |
| SatimClient.BuildRequest | src/Client/SatimClient.php:38-42 | the request goes to the API URL plus the endpoint path; its query is the credentials followed by the data unchanged, with userName and password reading as configured |
| SatimClient.RegisterRequest | src/Client/SatimClient.php:38-42 | registrations go to `/register.do` with the credentials followed by the data's parameters |
| SatimClient.ConfirmRequest | src/Client/SatimClient.php:59-63 | confirmations go to `/public/acknowledgeTransaction.do` with the credentials followed by the data's parameters |
| SatimClient.RefundRequest | src/Client/SatimClient.php:81-85 | refunds go to `/refund.do` with the credentials followed by the data's parameters |
| SatimClient.GetErrorCode | src/Client/SatimClient.php:109-112 | the code is `errorCode` when set, else `ErrorCode` when set, else 0, cast to a 64-bit int |
| SatimClient.GetErrorMessage | src/Client/SatimClient.php:117-120 | the message is `errorMessage` when set, else `ErrorMessage` when set, else "Unknown error"; an array or object found there is a `TypeError` from the `string` return type |
| SatimClient.NullIsMissing | src/Client/SatimClient.php:109-120 | a key holding null is read exactly as if it were absent |
| SatimClient.HandleErrors | src/Client/SatimClient.php:134-223 | nothing is thrown exactly when the code is 0; otherwise a message that cannot be a string raises its `TypeError`, and any other exception carries the looked-up code, the looked-up message and the whole body as context |
| SatimClient.ClassificationByCode | src/Client/SatimClient.php:134-223 | for a non-zero code and a readable message the exception is a payment error exactly for the endpoint's payment codes (register 1, 3, 4, 14; confirm 2, 6; refund 6), generic exactly for every other code but 5, and never a validation error |
| SatimClient.AccessDeniedEverywhere | src/Client/SatimClient.php:145-214 | code 5 fails on all three endpoints; it is an authentication exception exactly when the message is readable |
| SatimClient.DocumentedCodesClassified | src/Client/SatimClient.php:122-223 | each code documented for an endpoint is thrown as the class its comment names |
| SatimClient.ArrayMessageIsTypeError | src/Client/SatimClient.php:117-120 | on every endpoint, a non-zero code with an array under `errorMessage` ends in the `TypeError` of `getErrorMessage()` and no exception is built |
| SatimClient.Register | src/Client/SatimClient.php:36-48 | a non-zero looked-up code ends in what the register handler throws; a zero code ends in what `fromArray()` makes of the same body, the response or its `TypeError`; a returned response was read from that body |
| SatimClient.Confirm | src/Client/SatimClient.php:57-70 | a non-zero looked-up code ends in what the confirm handler throws; a zero code ends in what `fromArray()` makes of the same body; a returned response was read from that body |
| SatimClient.Refund | src/Client/SatimClient.php:79-92 | a non-zero looked-up code ends in what the refund handler throws; a zero code ends in what `fromArray()` makes of the same body; a returned response was read from that body |
| SatimClient.RegisterSuccessIsSuccessful | src/Client/SatimClient.php:44-47 | a register response the client returns is always successful |
| SatimClient.RefundSuccessIsSuccessful | src/Client/SatimClient.php:87-91 | a refund response the client returns is always successful |
| SatimClient.ConfirmSuccessIsSuccessful | src/Client/SatimClient.php:65-69 | a confirmation the client returns is successful when the body gives the code under one spelling only, or the same code under both |
| SatimClient.ConfirmLookupsDisagree | src/DTOs/ConfirmOrderResponse.php:80 | a body with `errorCode` 0 and `ErrorCode` 5 passes the client's check, yet reads with code 5, so when it binds it is returned as an unsuccessful response |
| SatimClient.NonNumericCodePassesThenThrows | src/Client/SatimClient.php:44-47 | a register body whose `errorCode` is a non-numeric string casts to 0 in the client's check, passes it, and then ends in a `TypeError` on `errorCode` from `fromArray()` |
| SatimClient.WrappedCodePassesThenThrows | src/Client/SatimClient.php:44-47 | a register body whose `errorCode` is a non-zero multiple of 2^64 wraps to 0 in the client's check, passes it, and ends in a `TypeError` on `errorCode` from `fromArray()` |
| SatimClient.OutOfRangeCodeStringClamped | src/Client/SatimClient.php:109-112 | an `errorCode` string beyond 64 bits is read by the client as `PHP_INT_MAX` or `PHP_INT_MIN`, by its sign |
| Satim.New | src/Satim.php:20-38 | a new builder stores the client, the default language, the currency and the terminal id, and has nothing pending |
| Satim.Set | src/Satim.php:47-115 | each string setter stores its value in its own field and leaves the other ten fields and the configuration unchanged |
| Satim.SetAmount | src/Satim.php:40-45 | `amount(n)` for whole dinars, when 100·n fits a PHP integer, stores 100·n and leaves every other field unchanged |
| Satim.ConvertToCents | src/Concerns/ConvertsAmounts.php:10-13 | whole dinars whose cents fit a PHP integer become a multiple of 100 cents that divides back to the dinars and is itself a PHP integer |
| Satim.SettersCommute | src/Satim.php:47-115 | setting two different fields gives the same builder in either order |
| Satim.Reset | src/Satim.php:162-175 | every pending field becomes null and the configuration is kept |
| Satim.RegisterArgs | src/Satim.php:119-133 | the data gets the pending order number or a generated one, the pending language or the default, the configured currency and terminal, and the other pending fields as they are; a null amount is a type error, reported before a null return URL |
| Satim.Register | src/Satim.php:117-140 | a null amount or return URL ends in its `TypeError`; data the constructor rejects ends in that validation exception; otherwise the result is exactly what the client returns. It succeeds only when all three steps do, and the fields are reset only on success and left untouched on every failure |
| Satim.GeneratedOrderNumberPasses | src/Satim.php:120 | without an order number of its own, the generated one passes the order-number rule |
| Satim.SecondRegisterNeedsAmount | src/Satim.php:135-137 | after a successful registration, registering again without a new amount is a type error that changes nothing |
| Satim.ValidationFailureKeepsFields | src/Satim.php:117-140 | when validation rejects the data, a validation exception is thrown and every pending field is kept |
| Satim.Confirm | src/Satim.php:142-150 | confirm uses the given language or the default; invalid data ends in its validation exception, valid data in exactly what the client returns; the builder is never touched |
| Satim.Refund | src/Satim.php:152-160 | refund sends 100 times the dinars; invalid data ends in its validation exception, valid data in exactly what the client returns; the builder is never touched |
| Satim.RefundDinarsRule | src/Satim.php:152-160 | with a non-empty order id, fewer than 50 dinars is rejected with the minimum message before anything is sent, and 50 or more passes |

## Left out

- HTTP transport: `buildRequest()`, the timeouts, the SSL flag and the `Http` facade are I/O. The `transport` parameter stands for the whole round trip.
- Transport failures: the client never catches connection errors, never checks the HTTP status and never handles a body that is not JSON, so none of these is modelled. A body that decodes to something other than an object is not modelled either.
- Float amounts: `convertToCents()` on a float and `convertToDinars()` are floating point. Only whole dinars are modelled.
- Satim.SetAmount: takes whole dinars only, because `(int) ($amount * 100)` on a float truncates in ways that are not modelled. It also requires 100·dinars to fit a PHP integer, as `ConvertToCents` does.
- Satim.ConvertToCents: requires 100·dinars to lie between `PHP_INT_MIN` and `PHP_INT_MAX`. The `float|int $amount` argument is a mathematical integer in the model, while the stored cents are a 64-bit `Php.PhpInt`. Past 92233720368547758 dinars the product becomes a float, and the `(int)` cast does not give it back. That case is not modelled.
- Satim.Refund: carries the same 64-bit bound on 100·dinars, for the same reason.
- Satim.RefundDinarsRule: carries the same 64-bit bound on 100·dinars.
- URL validation: `FILTER_VALIDATE_URL` is a library routine. It is the `validUrl` parameter, about which nothing is assumed.
- Randomness: `random_int` is the `drawn` parameter. How uniform or unique the draws are is not modelled.
- Json.ToInt: a number beyond 64 bits reaches PHP as the nearest float, and `(int)` wraps that float. The model wraps the exact number instead, so the two agree only when the number is itself a float, such as 10^20 or 2^64. PHP's manual calls this cast of an out-of-range float undefined.
- ConfirmOrderResponse.IntegerFieldsCoerced: `amount`, `depositAmount` and `actionCode` beyond 64 bits carry the same wrap of the exact number (see Json.ToInt).
- SatimClient.GetErrorCode: a numeric code beyond 64 bits carries the same wrap of the exact number (see Json.ToInt).
- Json.ToInt: casts only the decoded shapes listed. Some numeric strings are not plain integers: surrounding whitespace, `"+5"`, fractions, exponents, and leading-numeric strings such as `"12abc"`. The model casts all of these to 0, and `Accepts(IntParam, _)` refuses them, though PHP converts some of them. Float values are not modelled.
- Json.ToStr: a number beyond 64 bits reaches a `?string` as a float, which PHP prints in exponent form (`1.0E+20`). The model prints the exact digits. Floats and the rendering of negative numbers are not stated. A null never reaches a `?string` through `??`, and an array or object is a `TypeError` (`Json.Accepts`), so neither is converted.
- `jsonParams` is `json_encode` of the filtered array. The model keeps the filtered, ordered key/value list and not its JSON bytes.
- SatimClient.BuildRequest: requires distinct data keys, none of them a credential key. Every `toArray()` meets this, as `ToArrayKeys` and `ToArrayContents` show. The overriding case of `array_merge` is stated separately in `Php.GetMerge`.
- ConfirmOrderResponse.FromArray: there is no encoder or round-trip lemma for the 21-field response. Each field is instead stated against the body by `CapitalisedStringsPreferred`, `IntegerFieldsCoerced`, `AuthorizationFallsBackToApprovalCode` and `SingleKeyFields`.
- The `SatimValidationException`, `SatimAuthenticationException` and `SatimPaymentException` subclass files are not part of this model. They appear as the `kind` tag of one exception record, and the built-in `getMessage`, `getCode` and `getPrevious` are plain fields.
- Helpers exercised by the unit tests but absent from `src/DTOs/ConfirmOrderResponse.php` are not modelled: `getStatusName`, the dinar getters, `getUdfFields` and the response-code getters.
- The facade, service provider, configuration file and `SatimInterface` are wiring with no behaviour of their own.

=== FILE: confirm_order_data.dfy ===
/** `ConfirmOrderData`: the payload of `acknowledgeTransaction.do`. Unlike the
    register payload it stores its fields exactly as given: nothing is
    trimmed, and the language is compared upper-cased but kept as passed. */
module ConfirmOrderData {
  import opened Wrappers
  import Php
  import opened Gateway
  import opened Exceptions

  const MSG_MD_ORDER_REQUIRED: string := "mdOrder is required"
  const MSG_LANGUAGE_REQUIRED: string := "Language is required"

  datatype ConfirmOrderData = ConfirmOrderData(mdOrder: string, language: string)

  /** Every rule of `validate()` holds. */
  predicate Valid(d: ConfirmOrderData) {
    && !Php.Empty(d.mdOrder)
    && !Php.Empty(d.language)
    && Php.Upper(d.language) in VALID_LANGUAGES
  }

  /** `validate()`: the message of the first rule broken, or `None`. */
  function Violation(d: ConfirmOrderData): (r: Option<string>)
    ensures r.None? <==> Valid(d)
  {
    if Php.Empty(d.mdOrder) then Some(MSG_MD_ORDER_REQUIRED)
    else if Php.Empty(d.language) then Some(MSG_LANGUAGE_REQUIRED)
    else if Php.Upper(d.language) !in VALID_LANGUAGES then Some(MSG_LANGUAGE)
    else None
  }

  /** The rules of `validate()` as a table, in source order. */
  function Checks(d: ConfirmOrderData): seq<Check> {
    [ Check(!Php.Empty(d.mdOrder), MSG_MD_ORDER_REQUIRED),
      Check(!Php.Empty(d.language), MSG_LANGUAGE_REQUIRED),
      Check(Php.Upper(d.language) in VALID_LANGUAGES, MSG_LANGUAGE) ]
  }

  lemma ViolationIsFirstFailure(d: ConfirmOrderData)
    ensures Violation(d) == FirstFailure(Checks(d))
  {
    var cs := Checks(d);
    FirstFailureCons(cs[0], cs[1..]);
    FirstFailureCons(cs[1], cs[2..]);
    FirstFailureCons(cs[2], cs[3..]);
    assert cs[1..] == [cs[1]] + cs[2..];
    assert cs[2..] == [cs[2]] + cs[3..];
    assert cs == [cs[0]] + cs[1..];
  }

  /** `new ConfirmOrderData(...)`: the record as given, or the validation
      exception for the first rule it breaks. */
  function Create(d: ConfirmOrderData): (r: Result<ConfirmOrderData, SatimException>)
    ensures r.Success? <==> Valid(d)
    ensures r.Success? ==> r.value == d
    ensures r.Failure? ==> Some(r.error.message) == FirstFailure(Checks(d))
    ensures r.Failure? ==> r.error == NewException(Validation, r.error.message)
  {
    ViolationIsFirstFailure(d);
    match Violation(d)
    case Some(msg) => Failure(NewException(Validation, msg))
    case None => Success(d)
  }

  /** An empty-or-"0" string upper-cases to itself, so it is never a valid
      language: the "required" rule only changes which message is thrown. */
  lemma EmptyLanguageNeverValid(s: string)
    requires Php.Empty(s)
    ensures Php.Upper(s) !in VALID_LANGUAGES
  {
    if s == "0" {
      assert Php.Upper(s)[0] == '0';
    }
  }

  /** Acceptance depends only on whether `mdOrder` is non-empty and on the
      language up to letter case. */
  lemma ValidIffCaseInsensitiveLanguage(d: ConfirmOrderData)
    ensures Valid(d) <==> !Php.Empty(d.mdOrder) && Php.Upper(d.language) in VALID_LANGUAGES
  {
    if Php.Empty(d.language) {
      EmptyLanguageNeverValid(d.language);
    }
  }

  /** `toArray()`. */
  function ToArray(d: ConfirmOrderData): Params {
    [("mdOrder", PStr(d.mdOrder)), ("language", PStr(d.language))]
  }

  /** The two parameters are exactly the stored fields, under distinct keys
      that are not the credential keys. */
  lemma ToArrayContents(d: ConfirmOrderData)
    ensures Php.Get(ToArray(d), "mdOrder") == Some(PStr(d.mdOrder))
    ensures Php.Get(ToArray(d), "language") == Some(PStr(d.language))
    ensures Php.Keys(ToArray(d)) == {"mdOrder", "language"}
    ensures Php.KeysUnique(ToArray(d))
    ensures !Php.HasKey(ToArray(d), "userName") && !Php.HasKey(ToArray(d), "password")
  {
    var a := ToArray(d);
    assert a[0].0 == "mdOrder" && a[1].0 == "language";
    Php.GetAt(a, 0);
    Php.GetAt(a, 1);
  }
}

=== FILE: confirm_order_response.dfy ===
/** `ConfirmOrderResponse`: what `acknowledgeTransaction.do` answers. The
    gateway capitalises some keys on this endpoint, so several fields are
    read from the capitalised key first and the lower-case one second. */
module ConfirmOrderResponse {
  import opened Wrappers
  import opened Json
  import opened Exceptions
  import Php

  datatype ConfirmOrderResponse = ConfirmOrderResponse(
    errorCode: Php.PhpInt,
    orderStatus: Php.PhpInt,
    orderNumber: Option<string>,
    pan: Option<string>,
    amount: Option<Php.PhpInt>,
    depositAmount: Option<Php.PhpInt>,
    currency: Option<string>,
    actionCode: Option<Php.PhpInt>,
    actionCodeDescription: Option<string>,
    errorMessage: Option<string>,
    expiration: Option<string>,
    cardholderName: Option<string>,
    authorizationResponseId: Option<string>,
    approvalCode: Option<string>,
    ip: Option<string>,
    clientId: Option<string>,
    bindingId: Option<string>,
    paymentAccountReference: Option<string>,
    description: Option<string>,
    params: Option<JVal>,
    svfeResponse: Option<string>)

  // ------------------------------------------------------------ order status

  /** The order statuses the predicates name. */
  const STATUS_PRE_AUTHORIZED: int := 1
  const STATUS_PAID: int := 2
  const STATUS_REVERSED: int := 3
  const STATUS_REFUNDED: int := 4
  const STATUS_DECLINED: int := 6

  predicate IsSuccessful(r: ConfirmOrderResponse) { r.errorCode == 0 }
  predicate IsPaid(r: ConfirmOrderResponse) { r.orderStatus == STATUS_PAID }
  predicate IsPreAuthorized(r: ConfirmOrderResponse) { r.orderStatus == STATUS_PRE_AUTHORIZED }
  predicate IsDeclined(r: ConfirmOrderResponse) { r.orderStatus == STATUS_DECLINED }
  predicate IsRefunded(r: ConfirmOrderResponse) { r.orderStatus == STATUS_REFUNDED }
  predicate IsReversed(r: ConfirmOrderResponse) { r.orderStatus == STATUS_REVERSED }

  predicate HasCardDetails(r: ConfirmOrderResponse) {
    r.pan.Some? || r.expiration.Some? || r.cardholderName.Some?
  }

  predicate HasBinding(r: ConfirmOrderResponse) { r.bindingId.Some? }

  function GetResponseParams(r: ConfirmOrderResponse): Option<JVal> { r.params }

  /** The status predicates that hold, in a fixed order. */
  function StatusFlags(r: ConfirmOrderResponse): seq<bool> {
    [IsPaid(r), IsPreAuthorized(r), IsDeclined(r), IsRefunded(r), IsReversed(r)]
  }

  /** How many status predicates hold. */
  function CountTrue(bs: seq<bool>): (n: nat)
    ensures n <= |bs|
  {
    if bs == [] then 0 else (if bs[0] then 1 else 0) + CountTrue(bs[1..])
  }

  lemma CountTrueCons(b: bool, bs: seq<bool>)
    ensures CountTrue([b] + bs) == (if b then 1 else 0) + CountTrue(bs)
  {
    assert ([b] + bs)[1..] == bs;
  }

  /** At most one status predicate holds, and one does exactly when the status
      is one of 1, 2, 3, 4 or 6. */
  lemma AtMostOneStatus(r: ConfirmOrderResponse)
    ensures CountTrue(StatusFlags(r)) <= 1
    ensures CountTrue(StatusFlags(r)) == 1 <==> r.orderStatus in {1, 2, 3, 4, 6}
  {
    var bs := StatusFlags(r);
    assert bs == [bs[0]] + ([bs[1]] + ([bs[2]] + ([bs[3]] + ([bs[4]] + []))));
    CountTrueCons(bs[4], []);
    CountTrueCons(bs[3], [bs[4]] + []);
    CountTrueCons(bs[2], [bs[3]] + ([bs[4]] + []));
    CountTrueCons(bs[1], [bs[2]] + ([bs[3]] + ([bs[4]] + [])));
    CountTrueCons(bs[0], [bs[1]] + ([bs[2]] + ([bs[3]] + ([bs[4]] + []))));
  }

  // -------------------------------------------------------------- fromArray

  /** The `??`-chained arguments `fromArray()` passes, in the constructor's
      parameter order. `amount`, `depositAmount` and `actionCode` are left
      out: they receive an `(int)` cast or null, which their `?int`
      parameters always take. */
  const ARGS: seq<Arg> := [
    Arg("errorCode", IntParam, ["ErrorCode", "errorCode"]),
    Arg("orderStatus", IntParam, ["OrderStatus", "orderStatus"]),
    Arg("orderNumber", StringParam, ["OrderNumber", "orderNumber"]),
    Arg("pan", StringParam, ["Pan", "pan"]),
    Arg("currency", StringParam, ["currency"]),
    Arg("actionCodeDescription", StringParam, ["actionCodeDescription"]),
    Arg("errorMessage", StringParam, ["ErrorMessage", "errorMessage"]),
    Arg("expiration", StringParam, ["expiration"]),
    Arg("cardholderName", StringParam, ["cardholderName"]),
    Arg("authorizationResponseId", StringParam, ["authorizationResponseId", "approvalCode"]),
    Arg("approvalCode", StringParam, ["approvalCode"]),
    Arg("ip", StringParam, ["Ip", "ip"]),
    Arg("clientId", StringParam, ["clientId"]),
    Arg("bindingId", StringParam, ["bindingId"]),
    Arg("paymentAccountReference", StringParam, ["paymentAccountReference"]),
    Arg("description", StringParam, ["Description", "description"]),
    Arg("params", ArrayParam, ["params"]),
    Arg("svfeResponse", StringParam, ["SvfeResponse", "svfeResponse"])]

  /** The fields the constructor stores once every argument binds: each from
      its key list, first set key winning. */
  function Read(m: Raw): (r: ConfirmOrderResponse)
    ensures r.errorCode == if Isset(m, "ErrorCode") then ToInt(m["ErrorCode"])
                           else if Isset(m, "errorCode") then ToInt(m["errorCode"]) else 0
    ensures r.orderStatus == if Isset(m, "OrderStatus") then ToInt(m["OrderStatus"])
                             else if Isset(m, "orderStatus") then ToInt(m["orderStatus"]) else 0
  {
    CoalesceTwo(m, "ErrorCode", "errorCode");
    CoalesceTwo(m, "OrderStatus", "orderStatus");
    ConfirmOrderResponse(
      errorCode := IntOr(m, ["ErrorCode", "errorCode"], 0),
      orderStatus := IntOr(m, ["OrderStatus", "orderStatus"], 0),
      orderNumber := OptStr(m, ["OrderNumber", "orderNumber"]),
      pan := OptStr(m, ["Pan", "pan"]),
      amount := OptInt(m, ["Amount", "amount"]),
      depositAmount := OptInt(m, ["depositAmount"]),
      currency := OptStr(m, ["currency"]),
      actionCode := OptInt(m, ["actionCode"]),
      actionCodeDescription := OptStr(m, ["actionCodeDescription"]),
      errorMessage := OptStr(m, ["ErrorMessage", "errorMessage"]),
      expiration := OptStr(m, ["expiration"]),
      cardholderName := OptStr(m, ["cardholderName"]),
      authorizationResponseId := OptStr(m, ["authorizationResponseId", "approvalCode"]),
      approvalCode := OptStr(m, ["approvalCode"]),
      ip := OptStr(m, ["Ip", "ip"]),
      clientId := OptStr(m, ["clientId"]),
      bindingId := OptStr(m, ["bindingId"]),
      paymentAccountReference := OptStr(m, ["paymentAccountReference"]),
      description := OptStr(m, ["Description", "description"]),
      params := Coalesce(m, ["params"]),
      svfeResponse := OptStr(m, ["SvfeResponse", "svfeResponse"]))
  }

  /** `fromArray()`: the response, or the `TypeError` of the first argument
      whose parameter refuses the value found. */
  function FromArray(m: Raw): (r: Result<ConfirmOrderResponse, Error>)
    ensures r.Success? <==> forall i :: 0 <= i < |ARGS| ==> Binds(m, ARGS[i])
    ensures r.Success? ==> r.value == Read(m)
    ensures r.Failure? ==> exists i :: 0 <= i < |ARGS| && !Binds(m, ARGS[i]) && r.error == TypeError(ARGS[i].name)
                                       && forall j :: 0 <= j < i ==> Binds(m, ARGS[j])
  {
    match Unbound(m, ARGS)
    case Some(name) => Failure(TypeError(name))
    case None => Success(Read(m))
  }

  /** A capitalised error code that is not an integer, a boolean or an
      integer string is a `TypeError` on `int $errorCode`, whatever else the
      body holds. */
  lemma NonNumericCodeIsTypeError(m: Raw, s: string)
    requires !IsIntString(s)
    ensures FromArray(m["ErrorCode" := JStr(s)]) == Failure(TypeError("errorCode"))
  {
    var m' := m["ErrorCode" := JStr(s)];
    CoalesceTwo(m', "ErrorCode", "errorCode");
    assert !Binds(m', ARGS[0]);
    UnboundAt(m', ARGS, 0);
  }

  /** A capitalised error code beyond the 64-bit range, as a number or as a
      string of digits, is a `TypeError` on `int $errorCode`. */
  lemma OutOfRangeCodeIsTypeError(m: Raw, n: int)
    requires !Php.IsPhpInt(n)
    ensures FromArray(m["ErrorCode" := JNum(n)]) == Failure(TypeError("errorCode"))
    ensures FromArray(m["ErrorCode" := JStr(Php.RenderInt(n))]) == Failure(TypeError("errorCode"))
  {
    IntStringRoundTrip(n);
    var m1 := m["ErrorCode" := JNum(n)];
    var m2 := m["ErrorCode" := JStr(Php.RenderInt(n))];
    CoalesceTwo(m1, "ErrorCode", "errorCode");
    CoalesceTwo(m2, "ErrorCode", "errorCode");
    assert !Binds(m1, ARGS[0]) && !Binds(m2, ARGS[0]);
    UnboundAt(m1, ARGS, 0);
    UnboundAt(m2, ARGS, 0);
  }

  /** With a code that binds, an order status sent as a non-numeric string is
      a `TypeError` on `int $orderStatus`. */
  lemma NonNumericStatusIsTypeError(m: Raw, s: string)
    requires Binds(m, ARGS[0])
    requires !IsIntString(s)
    ensures FromArray(m["OrderStatus" := JStr(s)]) == Failure(TypeError("orderStatus"))
  {
    var m' := m["OrderStatus" := JStr(s)];
    CoalesceTwo(m, "ErrorCode", "errorCode");
    CoalesceTwo(m', "ErrorCode", "errorCode");
    CoalesceTwo(m', "OrderStatus", "orderStatus");
    assert Binds(m', ARGS[0]);
    assert !Binds(m', ARGS[1]);
    UnboundAt(m', ARGS, 1);
  }

  /** `params` is bound to `?array`: a string there is a `TypeError`, even
      when every other argument binds. */
  lemma ScalarParamsIsTypeError(m: Raw, s: string)
    requires forall i :: 0 <= i < 16 ==> Binds(m, ARGS[i])
    ensures FromArray(m["params" := JStr(s)]) == Failure(TypeError("params"))
  {
    var m' := m["params" := JStr(s)];
    assert forall i :: 0 <= i < 16 ==> "params" !in ARGS[i].keys;
    forall i | 0 <= i < 16 ensures Binds(m', ARGS[i]) {
      CoalesceAway(m, "params", JStr(s), ARGS[i].keys);
    }
    CoalesceOne(m', "params");
    assert !Binds(m', ARGS[16]);
    UnboundAt(m', ARGS, 16);
  }

  /** Setting a key no lookup mentions does not change the lookup. */
  lemma {:induction false} CoalesceAway(m: Raw, k: string, v: JVal, keys: seq<string>)
    requires k !in keys
    ensures Coalesce(m[k := v], keys) == Coalesce(m, keys)
  {
    if keys != [] {
      assert keys[0] != k;
      CoalesceAway(m, k, v, keys[1..]);
    }
  }

  /** A nullable string read from a capitalised key, then its lower-case form. */
  function Prefer(m: Raw, first: string, second: string): (r: Option<string>)
    ensures r.Some? <==> Isset(m, first) || Isset(m, second)
  {
    if Isset(m, first) then Some(ToStr(m[first]))
    else if Isset(m, second) then Some(ToStr(m[second]))
    else None
  }

  /** The six string fields with two spellings prefer the capitalised key. */
  lemma CapitalisedStringsPreferred(m: Raw)
    ensures Read(m).orderNumber == Prefer(m, "OrderNumber", "orderNumber")
    ensures Read(m).pan == Prefer(m, "Pan", "pan")
    ensures Read(m).errorMessage == Prefer(m, "ErrorMessage", "errorMessage")
    ensures Read(m).ip == Prefer(m, "Ip", "ip")
    ensures Read(m).description == Prefer(m, "Description", "description")
    ensures Read(m).svfeResponse == Prefer(m, "SvfeResponse", "svfeResponse")
  {
    CoalesceTwo(m, "OrderNumber", "orderNumber");
    CoalesceTwo(m, "Pan", "pan");
    CoalesceTwo(m, "ErrorMessage", "errorMessage");
    CoalesceTwo(m, "Ip", "ip");
    CoalesceTwo(m, "Description", "description");
    CoalesceTwo(m, "SvfeResponse", "svfeResponse");
  }

  /** The three integer fields are cast when set and null otherwise; the
      amount prefers `Amount` to `amount`. */
  lemma IntegerFieldsCoerced(m: Raw)
    ensures Read(m).amount == if Isset(m, "Amount") then Some(ToInt(m["Amount"]))
                                   else if Isset(m, "amount") then Some(ToInt(m["amount"])) else None
    ensures Read(m).depositAmount == if Isset(m, "depositAmount") then Some(ToInt(m["depositAmount"])) else None
    ensures Read(m).actionCode == if Isset(m, "actionCode") then Some(ToInt(m["actionCode"])) else None
  {
    CoalesceTwo(m, "Amount", "amount");
    assert ["depositAmount"][1..] == [];
    assert ["actionCode"][1..] == [];
  }

  /** A missing authorisation id is filled from `approvalCode`, which is also
      kept in its own field. */
  lemma AuthorizationFallsBackToApprovalCode(m: Raw)
    ensures !Isset(m, "authorizationResponseId") ==> Read(m).authorizationResponseId == Read(m).approvalCode
    ensures Isset(m, "authorizationResponseId")
            ==> Read(m).authorizationResponseId == Some(ToStr(m["authorizationResponseId"]))
  {
    CoalesceTwo(m, "authorizationResponseId", "approvalCode");
    assert ["approvalCode"][1..] == [];
  }

  /** Card details are reported exactly when a card key is set. */
  lemma CardDetailsFromKeys(m: Raw)
    ensures HasCardDetails(Read(m))
        <==> Isset(m, "Pan") || Isset(m, "pan") || Isset(m, "expiration") || Isset(m, "cardholderName")
    ensures HasBinding(Read(m)) <==> Isset(m, "bindingId")
  {
    CoalesceTwo(m, "Pan", "pan");
    assert ["expiration"][1..] == [];
    assert ["cardholderName"][1..] == [];
    assert ["bindingId"][1..] == [];
  }

  /** The response with every optional field null. */
  function Blank(errorCode: Php.PhpInt, orderStatus: Php.PhpInt): ConfirmOrderResponse {
    ConfirmOrderResponse(errorCode, orderStatus, None, None, None, None, None, None, None, None,
                         None, None, None, None, None, None, None, None, None, None, None)
  }

  /** The fields read from one key only. */
  lemma SingleKeyFields(m: Raw)
    ensures Read(m).currency == if Isset(m, "currency") then Some(ToStr(m["currency"])) else None
    ensures Read(m).actionCodeDescription
         == if Isset(m, "actionCodeDescription") then Some(ToStr(m["actionCodeDescription"])) else None
    ensures Read(m).expiration == if Isset(m, "expiration") then Some(ToStr(m["expiration"])) else None
    ensures Read(m).cardholderName == if Isset(m, "cardholderName") then Some(ToStr(m["cardholderName"])) else None
    ensures Read(m).approvalCode == if Isset(m, "approvalCode") then Some(ToStr(m["approvalCode"])) else None
    ensures Read(m).clientId == if Isset(m, "clientId") then Some(ToStr(m["clientId"])) else None
    ensures Read(m).bindingId == if Isset(m, "bindingId") then Some(ToStr(m["bindingId"])) else None
    ensures Read(m).paymentAccountReference
         == if Isset(m, "paymentAccountReference") then Some(ToStr(m["paymentAccountReference"])) else None
    ensures Read(m).params == if Isset(m, "params") then Some(m["params"]) else None
  {
    assert ["currency"][1..] == [];
    assert ["actionCodeDescription"][1..] == [];
    assert ["expiration"][1..] == [];
    assert ["cardholderName"][1..] == [];
    assert ["approvalCode"][1..] == [];
    assert ["clientId"][1..] == [];
    assert ["bindingId"][1..] == [];
    assert ["paymentAccountReference"][1..] == [];
    assert ["params"][1..] == [];
  }

  /** A body in which nothing is set (every key missing or null) reads as a
      successful, status-0 response with every optional field null. */
  lemma NothingSetIsBlank(m: Raw)
    requires forall k :: k in m ==> m[k].JNull?
    ensures Read(m) == Blank(0, 0)
    ensures IsSuccessful(Read(m)) && !HasCardDetails(Read(m)) && !HasBinding(Read(m))
  {
    CapitalisedStringsPreferred(m);
    IntegerFieldsCoerced(m);
    AuthorizationFallsBackToApprovalCode(m);
    SingleKeyFields(m);
  }

  /** Such a body binds every argument, no parameter seeing a value, so
      `fromArray()` returns that blank response; an empty body is one. */
  lemma NothingSetBinds(m: Raw)
    requires forall k :: k in m ==> m[k].JNull?
    ensures FromArray(m) == Success(Blank(0, 0))
  {
    forall i | 0 <= i < |ARGS| ensures Binds(m, ARGS[i]) {
      assert Coalesce(m, ARGS[i].keys) == None;
    }
    NothingSetIsBlank(m);
  }

  /** When the capitalised code is set, the lower-case one is never looked at. */
  lemma CapitalisedErrorCodeWins(m: Raw, v: JVal)
    requires Isset(m, "ErrorCode")
    ensures Read(m["errorCode" := v]).errorCode == Read(m).errorCode == ToInt(m["ErrorCode"])
  {
    var m' := m["errorCode" := v];
    assert Isset(m', "ErrorCode") && m'["ErrorCode"] == m["ErrorCode"];
  }
}

=== FILE: exceptions.dfy ===
/** `SatimException` and its subclasses as one record with a kind tag. */
module Exceptions {
  import opened Wrappers
  import Json
  import Php

  /** Which class was thrown: the base `SatimException` (generic), or one of
      the validation, authentication and payment subclasses. */
  datatype ErrorKind = Generic | Validation | Authentication | Payment

  /** A previous `Throwable` kept as the cause. */
  datatype Cause = Cause(message: string)

  /** The exception record. `code` is PHP's built-in `Exception` code; the
      gateway's code lives in `errorCode`. */
  datatype SatimException = SatimException(
    kind: ErrorKind,
    message: string,
    code: Php.PhpInt,
    errorCode: Php.PhpInt,
    context: Option<Json.Raw>,
    previous: Option<Cause>)

  /** What a call can throw: one of the package's exceptions, or PHP's own
      `TypeError` when a decoded value reaches a typed parameter or return
      value that cannot take it; `target` names that parameter (or the method
      whose return type refused it). */
  datatype Error = Thrown(exception: SatimException) | TypeError(target: string)

  /** `new SatimException($message, $errorCode = 0, $context = null, $previous = null)`
      (or one of its subclasses, by `kind`). The constructor hands 0 to
      `Exception` as its own code and keeps the gateway code apart. */
  function NewException(
    kind: ErrorKind,
    message: string,
    errorCode: Php.PhpInt := 0,
    context: Option<Json.Raw> := None,
    previous: Option<Cause> := None): (e: SatimException)
    ensures e.code == 0
    ensures e.kind == kind && e.message == message && e.errorCode == errorCode
    ensures e.context == context && e.previous == previous
  {
    SatimException(kind, message, 0, errorCode, context, previous)
  }

  function GetMessage(e: SatimException): string { e.message }

  function GetCode(e: SatimException): Php.PhpInt { e.code }

  function GetErrorCode(e: SatimException): Php.PhpInt { e.errorCode }

  function GetContext(e: SatimException): Option<Json.Raw> { e.context }

  function GetPrevious(e: SatimException): Option<Cause> { e.previous }

  /** Every getter returns what the constructor was given; the built-in code is
      always 0 whatever the gateway code. */
  lemma GettersReturnConstructorArguments(
    kind: ErrorKind, message: string, errorCode: Php.PhpInt, context: Option<Json.Raw>, previous: Option<Cause>)
    ensures var e := NewException(kind, message, errorCode, context, previous);
      && GetMessage(e) == message
      && GetErrorCode(e) == errorCode
      && GetContext(e) == context
      && GetPrevious(e) == previous
      && GetCode(e) == 0
  {
  }

  /** With only a message, the gateway code is 0 and there is no context and no
      cause. */
  lemma ConstructorDefaults(kind: ErrorKind, message: string)
    ensures var e := NewException(kind, message);
      && GetMessage(e) == message
      && GetErrorCode(e) == 0
      && GetContext(e) == None
      && GetPrevious(e) == None
  {
  }
}

=== FILE: gateway.dfy ===
/** Vocabulary shared by the three request objects: the outbound query
    parameters, the gateway's language and amount rules with their messages,
    and the first-failure-wins discipline of every `validate()`. */
module Gateway {
  import opened Wrappers
  import Php

  /** A value in an outbound parameter array. `jsonParams` is sent as the JSON
      encoding of an ordered key/value list; `PJson` keeps that list. */
  datatype Param = PStr(s: string) | PInt(i: Php.PhpInt) | PJson(fields: Php.Assoc<string>)

  type Params = Php.Assoc<Param>

  /** The languages the gateway accepts, upper-case. */
  const VALID_LANGUAGES: set<string> := {"FR", "EN", "AR"}

  /** Amounts are in cents: at least 50 DA, in whole dinars. */
  const MIN_AMOUNT: int := 5000
  const AMOUNT_STEP: int := 100

  const MSG_AMOUNT_MIN: string := "Amount must be at least 5000 cents (50 DA)"
  const MSG_AMOUNT_MULTIPLE: string := "Amount must be a multiple of 100 cents"
  const MSG_LANGUAGE: string := "Language must be FR, EN, or AR"

  /** The first of two verdicts that reports something. */
  function FirstOf(a: Option<string>, b: Option<string>): Option<string> {
    if a.Some? then a else b
  }

  /** One validation rule: whether it holds, and what is thrown if not. */
  datatype Check = Check(passes: bool, message: string)

  /** Running checks in order and stopping at the first that fails: its message,
      or `None` when all hold. */
  function FirstFailure(cs: seq<Check>): (r: Option<string>)
    ensures r.None? <==> forall i :: 0 <= i < |cs| ==> cs[i].passes
    ensures r.Some? ==> exists i :: 0 <= i < |cs| && !cs[i].passes && cs[i].message == r.value
                                    && forall j :: 0 <= j < i ==> cs[j].passes
  {
    if cs == [] then None
    else if !cs[0].passes then Some(cs[0].message)
    else
      var r := FirstFailure(cs[1..]);
      assert forall i :: 0 <= i < |cs[1..]| ==> cs[1..][i] == cs[i + 1];
      r
  }

  /** When check `i` is the first to fail, its message is the one reported,
      whatever the later checks say. */
  lemma {:induction false} FirstFailureAt(cs: seq<Check>, i: nat)
    requires i < |cs| && !cs[i].passes
    requires forall j :: 0 <= j < i ==> cs[j].passes
    ensures FirstFailure(cs) == Some(cs[i].message)
  {
    if i > 0 {
      FirstFailureAt(cs[1..], i - 1);
    }
  }

  /** Checks that all pass can be skipped: the verdict comes from what follows. */
  lemma {:induction false} FirstFailureAfterPassing(cs: seq<Check>, ds: seq<Check>)
    requires forall i :: 0 <= i < |cs| ==> cs[i].passes
    ensures FirstFailure(cs + ds) == FirstFailure(ds)
  {
    if cs != [] {
      assert (cs + ds)[1..] == cs[1..] + ds;
      FirstFailureAfterPassing(cs[1..], ds);
    } else {
      assert cs + ds == ds;
    }
  }

  /** Scanning two tables in a row: the first reports if it can, otherwise the
      second decides. */
  lemma {:induction false} FirstFailureAppend(cs: seq<Check>, ds: seq<Check>)
    ensures FirstFailure(cs + ds) == if FirstFailure(cs).Some? then FirstFailure(cs) else FirstFailure(ds)
  {
    if cs == [] {
      assert cs + ds == ds;
    } else {
      assert (cs + ds)[0] == cs[0];
      assert (cs + ds)[1..] == cs[1..] + ds;
      FirstFailureAppend(cs[1..], ds);
    }
  }

  /** One step of the scan: a failing head check decides, a passing one defers
      to the rest. */
  lemma FirstFailureCons(c: Check, cs: seq<Check>)
    ensures FirstFailure([c] + cs) == if !c.passes then Some(c.message) else FirstFailure(cs)
  {
    assert ([c] + cs)[1..] == cs;
  }
}

=== FILE: json.dfy ===
/** The decoded gateway body. Laravel's `$response->json()` decodes JSON
    objects into PHP arrays; the DTOs then read it with `??` and `isset`, for
    which a key that holds `null` counts as missing, and coerce scalars into
    their declared `int` and `?string` fields. */
module Json {
  import opened Wrappers
  import Php

  datatype JVal =
    | JNull
    | JBool(b: bool)
    | JNum(n: int)
    | JStr(s: string)
    | JArr(items: seq<JVal>)
    | JObj(fields: map<string, JVal>)

  /** A decoded response body: JSON object keys to values. */
  type Raw = map<string, JVal>

  /** `isset($m[$k])`: present and not null. */
  predicate Isset(m: Raw, k: string) {
    k in m && !m[k].JNull?
  }

  /** `$m[$k1] ?? $m[$k2] ?? ...` before the final default: the value of the
      first listed key that is set, or `None` when none is. */
  function Coalesce(m: Raw, keys: seq<string>): (r: Option<JVal>)
    ensures r.None? <==> forall i :: 0 <= i < |keys| ==> !Isset(m, keys[i])
    ensures r.Some? ==> exists i :: 0 <= i < |keys| && Isset(m, keys[i]) && m[keys[i]] == r.value
                                    && forall j :: 0 <= j < i ==> !Isset(m, keys[j])
  {
    if keys == [] then None
    else if Isset(m, keys[0]) then Some(m[keys[0]])
    else
      var r := Coalesce(m, keys[1..]);
      assert forall i :: 0 <= i < |keys[1..]| ==> keys[1..][i] == keys[i + 1];
      r
  }

  /** The two-key fallback every DTO uses, spelled out: the first key wins when
      set, the second is read only when the first is missing or null. */
  lemma CoalesceTwo(m: Raw, first: string, second: string)
    ensures Coalesce(m, [first, second])
         == if Isset(m, first) then Some(m[first])
            else if Isset(m, second) then Some(m[second])
            else None
  {
    assert [first, second][1..] == [second];
    assert [second][1..] == [];
  }

  /** A single-key lookup: the value when set, nothing otherwise. */
  lemma CoalesceOne(m: Raw, k: string)
    ensures Coalesce(m, [k]) == if Isset(m, k) then Some(m[k]) else None
  {
    assert [k][1..] == [];
  }

  /** A string PHP reads as a whole integer: optional minus sign, then digits. */
  predicate IsIntString(s: string) {
    (|s| > 0 && Php.AllDigits(s)) || (|s| > 1 && s[0] == '-' && Php.AllDigits(s[1..]))
  }

  function ParseInt(s: string): int
    requires IsIntString(s)
  {
    if s[0] == '-' then -(Php.ParseDigits(s[1..]) as int) else Php.ParseDigits(s)
  }

  /** The `(int)` cast on a decoded value: null to 0, booleans to 0/1,
      numbers as they are, integer strings to their value and any other
      string to 0, arrays to 0 when empty and 1 otherwise. The result is a
      64-bit PHP integer: an integer string out of range is clamped to
      `PHP_INT_MAX` or `PHP_INT_MIN`, and a number out of range (which
      `json_decode` hands over as a float) wraps around modulo 2^64. An `int`
      parameter converts the same way, but only the values
      `Accepts(IntParam, _)` lets through; it refuses the rest with a `TypeError`. */
  function ToInt(v: JVal): (r: int)
    ensures Php.IsPhpInt(r)
    ensures v.JNum? && Php.IsPhpInt(v.n) ==> r == v.n
    ensures v.JNum? ==> (r - v.n) % Php.TWO_POW_64 == 0
    ensures v.JNull? || v.JBool? || v.JArr? || v.JObj? ==> 0 <= r <= 1
    ensures v.JStr? && !IsIntString(v.s) ==> r == 0
    ensures v.JStr? && IsIntString(v.s) && Php.IsPhpInt(ParseInt(v.s)) ==> r == ParseInt(v.s)
    ensures v.JStr? && IsIntString(v.s) && ParseInt(v.s) > Php.PHP_INT_MAX ==> r == Php.PHP_INT_MAX
    ensures v.JStr? && IsIntString(v.s) && ParseInt(v.s) < Php.PHP_INT_MIN ==> r == Php.PHP_INT_MIN
    ensures v.JStr? && IsIntString(v.s) && v.s[0] != '-' ==> r >= 0
  {
    match v
    case JNull => 0
    case JBool(b) => if b then 1 else 0
    case JNum(n) => if Php.IsPhpInt(n) then n else Php.Wrap(n)
    case JStr(s) => if IsIntString(s) then Php.Saturate(ParseInt(s)) else 0
    case JArr(xs) => if xs == [] then 0 else 1
    case JObj(f) => if f == map[] then 0 else 1
  }

  /** The conversion of a decoded scalar to `string` that a `?string`
      parameter applies: strings as they are, integers in decimal, `true` to
      "1" and `false` to "". Arrays and objects are refused
      (`Accepts(StringParam, _)`). */
  function ToStr(v: JVal): (r: string)
    ensures v.JStr? ==> r == v.s
    ensures v.JNum? && v.n >= 0 ==> Php.AllDigits(r) && r != []
    ensures v.JBool? ==> r == (if v.b then "1" else "")
  {
    match v
    case JStr(s) => s
    case JNum(n) => Php.RenderInt(n)
    case JBool(b) => if b then "1" else ""
    case _ => ""
  }

  // ------------------------------------------------- binding typed parameters

  /** The declared type of a constructor parameter a response field is bound
      to. Nullability does not matter here: `??` never passes a null on. */
  datatype ParamType = IntParam | StringParam | ArrayParam

  /** Whether a parameter of type `t` takes `v` in PHP's default (coercive)
      mode. An `int` takes booleans, and integers and integer strings within
      the 64-bit range; it refuses a non-numeric string, an array, an object
      and a number or integer string out of range (a float to PHP); a `?string` takes any scalar
      but no array or object; a `?array` takes only arrays, and a decoded
      JSON object is a PHP array. Anything else is a `TypeError`. */
  predicate Accepts(t: ParamType, v: JVal) {
    match t
    case IntParam => v.JBool? || (v.JNum? && Php.IsPhpInt(v.n))
                     || (v.JStr? && IsIntString(v.s) && Php.IsPhpInt(ParseInt(v.s)))
    case StringParam => !v.JArr? && !v.JObj?
    case ArrayParam => v.JArr? || v.JObj?
  }

  /** One named constructor argument `name: $data[k1] ?? $data[k2] ?? default`:
      its parameter name, its declared type and the keys it looks at. */
  datatype Arg = Arg(name: string, typ: ParamType, keys: seq<string>)

  /** The argument binds: no key is set (so the literal default is passed), or
      the value found is one its parameter takes. */
  predicate Binds(m: Raw, a: Arg) {
    match Coalesce(m, a.keys)
    case Some(v) => Accepts(a.typ, v)
    case None => true
  }

  /** PHP binds arguments in declaration order and throws on the first one it
      cannot take: that argument's name, or `None` when all bind. */
  function Unbound(m: Raw, args: seq<Arg>): (r: Option<string>)
    ensures r.None? <==> forall i :: 0 <= i < |args| ==> Binds(m, args[i])
    ensures r.Some? ==> exists i :: 0 <= i < |args| && !Binds(m, args[i]) && args[i].name == r.value
                                    && forall j :: 0 <= j < i ==> Binds(m, args[j])
  {
    if args == [] then None
    else if !Binds(m, args[0]) then Some(args[0].name)
    else
      var r := Unbound(m, args[1..]);
      assert forall i :: 0 <= i < |args[1..]| ==> args[1..][i] == args[i + 1];
      r
  }

  /** The first argument that does not bind is the one reported. */
  lemma {:induction false} UnboundAt(m: Raw, args: seq<Arg>, i: nat)
    requires i < |args| && !Binds(m, args[i])
    requires forall j :: 0 <= j < i ==> Binds(m, args[j])
    ensures Unbound(m, args) == Some(args[i].name)
  {
    if i > 0 {
      UnboundAt(m, args[1..], i - 1);
    }
  }

  /** A number sent as a JSON string is read as the number itself: an `int`
      parameter takes the string exactly when it takes the number, which is
      when the value fits in 64 bits, and the `(int)` cast then gives the same
      integer for both, so `"100320"` and `100320` agree. Beyond the range the
      cast clamps the string. */
  lemma IntStringRoundTrip(i: int)
    ensures IsIntString(Php.RenderInt(i)) && ParseInt(Php.RenderInt(i)) == i
    ensures Accepts(IntParam, JStr(Php.RenderInt(i))) <==> Php.IsPhpInt(i)
    ensures Accepts(IntParam, JNum(i)) <==> Php.IsPhpInt(i)
    ensures Php.IsPhpInt(i) ==> ToInt(JStr(Php.RenderInt(i))) == i == ToInt(JNum(i))
    ensures i > Php.PHP_INT_MAX ==> ToInt(JStr(Php.RenderInt(i))) == Php.PHP_INT_MAX
    ensures i < Php.PHP_INT_MIN ==> ToInt(JStr(Php.RenderInt(i))) == Php.PHP_INT_MIN
  {
    var s := Php.RenderInt(i);
    if i < 0 {
      var d := Php.Render(-i);
      assert s == "-" + d;
      assert s[1..] == d;
      assert s[0] == '-';
      assert IsIntString(s);
      Php.ParseRender(-i);
      assert ParseInt(s) == -(Php.ParseDigits(d) as int);
    } else {
      assert s == Php.Render(i);
      assert s[0] != '-';
      Php.ParseRender(i);
      assert ParseInt(s) == Php.ParseDigits(s);
    }
  }

  /** A nullable `int` field read with fallback keys: `isset(...) ? (int) ... : null`. */
  function OptInt(m: Raw, keys: seq<string>): (r: Option<Php.PhpInt>)
    ensures r.Some? <==> Coalesce(m, keys).Some?
  {
    match Coalesce(m, keys)
    case Some(v) => Some(ToInt(v))
    case None => None
  }

  /** A nullable `string` field read with fallback keys: `$m[k1] ?? ... ?? null`. */
  function OptStr(m: Raw, keys: seq<string>): (r: Option<string>)
    ensures r.Some? <==> Coalesce(m, keys).Some?
  {
    match Coalesce(m, keys)
    case Some(v) => Some(ToStr(v))
    case None => None
  }

  /** An `int` field read with fallback keys and a literal default. */
  function IntOr(m: Raw, keys: seq<string>, default: Php.PhpInt): (r: Php.PhpInt)
    ensures Coalesce(m, keys).None? ==> r == default
  {
    match Coalesce(m, keys)
    case Some(v) => ToInt(v)
    case None => default
  }
}

=== FILE: order_numbers.dfy ===
/** `generateOrderNumber()`: a random integer from a ten-digit range, cast to
    a string. The draw itself is a parameter. */
module OrderNumbers {
  import Php

  const LOWEST: nat := 1000000000
  const HIGHEST: nat := 9999999999

  /** `(string) random_int(1000000000, 9999999999)` for the value drawn. */
  function GenerateOrderNumber(drawn: nat): (r: string)
    requires LOWEST <= drawn <= HIGHEST
    ensures |r| == 10
    ensures forall i :: 0 <= i < |r| ==> Php.IsDigit(r[i])
    ensures r[0] != '0'
    ensures Php.ParseDigits(r) == drawn
  {
    assert Php.Pow10(9) == LOWEST && Php.Pow10(10) == HIGHEST + 1;
    Php.RenderLength(drawn, 9);
    Php.ParseRender(drawn);
    Php.Render(drawn)
  }

  /** Different draws give different numbers. */
  lemma GenerateInjective(a: nat, b: nat)
    requires LOWEST <= a <= HIGHEST && LOWEST <= b <= HIGHEST
    requires GenerateOrderNumber(a) == GenerateOrderNumber(b)
    ensures a == b
  {
  }

  /** Every generated number is already trimmed and passes the register
      order-number rule `^[A-Za-z0-9]{1,10}$`. */
  lemma GeneratedNumberIsValidOrderNumber(drawn: nat)
    requires LOWEST <= drawn <= HIGHEST
    ensures Php.Trim(GenerateOrderNumber(drawn)) == GenerateOrderNumber(drawn)
    ensures Php.MatchesAlnum(GenerateOrderNumber(drawn), 1, 10)
  {
    var r := GenerateOrderNumber(drawn);
    assert Php.IsTrimmed(r) by {
      assert Php.IsDigit(r[0]) && Php.IsDigit(r[|r| - 1]);
    }
    Php.TrimKeepsTrimmed(r);
    assert Php.AllAlnum(r);
  }
}

=== FILE: php.dfy ===
/** The PHP built-ins the gateway client leans on, stated over code-point
    strings: `trim`, `strtoupper`, `empty`, the anchored PCRE character-class
    patterns, integer `%`, integer/decimal-string conversion, and the ordered
    associative arrays that `array_merge`, `array_filter` and `$a[$k] = $v`
    work on. */
module Php {
  import opened Wrappers

  // ---------------------------------------------------------------- trim

  /** The characters PHP's `trim` strips by default: space, tab, line feed,
      carriage return, NUL and vertical tab. */
  predicate IsTrimmable(c: char) {
    c == ' ' || c == '\t' || c == '\n' || c == '\r' || c == '\0' || c == '\U{0B}'
  }

  /** `ltrim`: drops the leading run of trimmable characters. */
  function TrimLeft(s: string): (r: string)
    ensures |r| <= |s| && r == s[|s| - |r|..]
    ensures forall i :: 0 <= i < |s| - |r| ==> IsTrimmable(s[i])
    ensures r != [] ==> !IsTrimmable(r[0])
  {
    if |s| > 0 && IsTrimmable(s[0]) then TrimLeft(s[1..]) else s
  }

  /** `rtrim`: drops the trailing run of trimmable characters. */
  function TrimRight(s: string): (r: string)
    ensures |r| <= |s| && r == s[..|r|]
    ensures forall i :: |r| <= i < |s| ==> IsTrimmable(s[i])
    ensures r != [] ==> !IsTrimmable(r[|r| - 1])
  {
    if |s| > 0 && IsTrimmable(s[|s| - 1]) then TrimRight(s[..|s| - 1]) else s
  }

  /** A string that `trim` leaves alone. */
  predicate IsTrimmed(s: string) {
    s == [] || (!IsTrimmable(s[0]) && !IsTrimmable(s[|s| - 1]))
  }

  /** `trim`: the slice of `s` between its leading and trailing trimmable runs.
      What is cut off before the result is all whitespace, and so is what is
      cut off after it. */
  function Trim(s: string): (r: string)
    ensures IsTrimmed(r)
    ensures |r| <= |s|
    ensures forall i :: 0 <= i < |s| - |TrimLeft(s)| ==> IsTrimmable(s[i])
    ensures forall i :: |s| - |TrimLeft(s)| + |r| <= i < |s| ==> IsTrimmable(s[i])
  {
    var l := TrimLeft(s);
    var r := TrimRight(l);
    assert forall i :: |s| - |l| + |r| <= i < |s| ==> s[i] == l[i - (|s| - |l|)];
    r
  }

  /** `trim` returns a contiguous slice of its input, and everything it cut off
      is whitespace in PHP's sense. */
  lemma TrimIsSlice(s: string)
    ensures |s| - |TrimLeft(s)| + |Trim(s)| <= |s|
    ensures Trim(s) == s[|s| - |TrimLeft(s)|..|s| - |TrimLeft(s)| + |Trim(s)|]
    ensures forall i :: 0 <= i < |s| - |TrimLeft(s)| ==> IsTrimmable(s[i])
    ensures forall i :: |s| - |TrimLeft(s)| + |Trim(s)| <= i < |s| ==> IsTrimmable(s[i])
  {
    var l := TrimLeft(s);
    TrimOfLeft(s);
    SliceOfSuffix(s, |s| - |l|, |Trim(s)|);
  }

  /** `trim` is `rtrim` of `ltrim`, a prefix of it. */
  lemma TrimOfLeft(s: string)
    ensures Trim(s) == TrimRight(TrimLeft(s))
    ensures Trim(s) == TrimLeft(s)[..|Trim(s)|]
  {
  }

  lemma SliceOfSuffix(s: string, k: nat, n: nat)
    requires k + n <= |s|
    ensures s[k..][..n] == s[k..k + n]
  {
  }

  /** `trim` only removes characters from the ends: a string whose ends are not
      whitespace is returned unchanged. */
  lemma TrimKeepsTrimmed(s: string)
    requires IsTrimmed(s)
    ensures Trim(s) == s
  {
  }

  /** `trim` is idempotent. */
  lemma TrimIdempotent(s: string)
    ensures Trim(Trim(s)) == Trim(s)
  {
    TrimKeepsTrimmed(Trim(s));
  }

  // ---------------------------------------------------------------- case

  /** `strtoupper` on one character: since PHP 8.2 it only maps ASCII `a`-`z`. */
  function UpperChar(c: char): char {
    if 'a' <= c <= 'z' then (c as int - 32) as char else c
  }

  /** `strtoupper`. */
  function Upper(s: string): (r: string)
    ensures |r| == |s|
    ensures forall i :: 0 <= i < |s| ==> r[i] == UpperChar(s[i])
  {
    if s == [] then [] else [UpperChar(s[0])] + Upper(s[1..])
  }

  /** Upper-casing twice is upper-casing once. */
  lemma UpperIdempotent(s: string)
    ensures Upper(Upper(s)) == Upper(s)
  {
  }

  // ---------------------------------------------------------------- empty

  /** `empty($s)` for a string: the empty string and `"0"` are both empty. */
  predicate Empty(s: string) {
    s == "" || s == "0"
  }

  /** PHP truthiness of a nullable string, as `array_filter` without a callback
      uses it: null, `""` and `"0"` are falsy. */
  predicate Truthy(v: Option<string>) {
    v.Some? && !Empty(v.value)
  }

  // ---------------------------------------------------------------- PCRE

  predicate IsDigit(c: char) {
    '0' <= c <= '9'
  }

  /** The PCRE class `[A-Za-z0-9]`. */
  predicate IsAlnum(c: char) {
    'A' <= c <= 'Z' || 'a' <= c <= 'z' || IsDigit(c)
  }

  /** Whether every character is in `[A-Za-z0-9]`, decided left to right. */
  function AllAlnum(s: string): (b: bool)
    ensures b <==> forall i :: 0 <= i < |s| ==> IsAlnum(s[i])
  {
    s == [] || (IsAlnum(s[0]) && AllAlnum(s[1..]))
  }

  /** Whether every character is in `\d` (ASCII digits: no `u` modifier). */
  function AllDigits(s: string): (b: bool)
    ensures b <==> forall i :: 0 <= i < |s| ==> IsDigit(s[i])
  {
    s == [] || (IsDigit(s[0]) && AllDigits(s[1..]))
  }

  /** The body of `^[A-Za-z0-9]{lo,hi}` matched against a whole string. */
  predicate AlnumBody(s: string, lo: nat, hi: nat) {
    lo <= |s| <= hi && AllAlnum(s)
  }

  /** The body of `^\d{lo,hi}` matched against a whole string. */
  predicate DigitBody(s: string, lo: nat, hi: nat) {
    lo <= |s| <= hi && AllDigits(s)
  }

  /** `preg_match('/^[A-Za-z0-9]{lo,hi}$/', s) === 1`. Without the `D` modifier
      PCRE's `$` also matches just before a final line feed: every character
      but the last is in the class, the last is in the class or is a line
      feed, and the length is `lo..hi`, one more when a line feed ends it. */
  function MatchesAlnum(s: string, lo: nat, hi: nat): (b: bool)
    ensures b ==> lo <= |s| <= hi + 1
    ensures b ==> forall i :: 0 <= i < |s| - 1 ==> IsAlnum(s[i])
    ensures b && |s| > 0 ==> IsAlnum(s[|s| - 1]) || s[|s| - 1] == '\n'
    ensures b && |s| > hi ==> s[|s| - 1] == '\n'
    ensures (lo <= |s| <= hi && forall i :: 0 <= i < |s| ==> IsAlnum(s[i])) ==> b
  {
    AlnumBody(s, lo, hi) || (|s| > 0 && s[|s| - 1] == '\n' && AlnumBody(s[..|s| - 1], lo, hi))
  }

  /** `preg_match('/^\d{lo,hi}$/', s) === 1`, with the same `$` behaviour. */
  function MatchesDigits(s: string, lo: nat, hi: nat): (b: bool)
    ensures b ==> lo <= |s| <= hi + 1
    ensures b ==> forall i :: 0 <= i < |s| - 1 ==> IsDigit(s[i])
    ensures b && |s| > 0 ==> IsDigit(s[|s| - 1]) || s[|s| - 1] == '\n'
    ensures b && |s| > hi ==> s[|s| - 1] == '\n'
    ensures (lo <= |s| <= hi && forall i :: 0 <= i < |s| ==> IsDigit(s[i])) ==> b
  {
    DigitBody(s, lo, hi) || (|s| > 0 && s[|s| - 1] == '\n' && DigitBody(s[..|s| - 1], lo, hi))
  }

  /** On a trimmed string the final-newline allowance of `$` never applies, so
      the pattern accepts exactly the strings that are `lo..hi` characters of
      `[A-Za-z0-9]`. */
  lemma MatchesAlnumOnTrimmed(s: string, lo: nat, hi: nat)
    requires IsTrimmed(s)
    ensures MatchesAlnum(s, lo, hi) <==> (lo <= |s| <= hi && forall i :: 0 <= i < |s| ==> IsAlnum(s[i]))
  {
  }

  /** The same for `^\d{lo,hi}$`. */
  lemma MatchesDigitsOnTrimmed(s: string, lo: nat, hi: nat)
    requires IsTrimmed(s)
    ensures MatchesDigits(s, lo, hi) <==> (lo <= |s| <= hi && forall i :: 0 <= i < |s| ==> IsDigit(s[i]))
  {
  }

  /** Without trimming the pattern does let a final line feed through. */
  lemma MatchesAlnumAcceptsFinalNewline()
    ensures MatchesAlnum("A1\n", 1, 10)
    ensures !AlnumBody("A1\n", 1, 10)
  {
    assert "A1\n"[..2] == "A1";
    assert !IsAlnum("A1\n"[2]);
  }

  // ---------------------------------------------------------------- integers

  /** The range of a PHP `int` on a 64-bit build. */
  const PHP_INT_MAX: int := 0x7FFF_FFFF_FFFF_FFFF
  const PHP_INT_MIN: int := -0x8000_0000_0000_0000

  predicate IsPhpInt(i: int) {
    PHP_INT_MIN <= i <= PHP_INT_MAX
  }

  /** A value a PHP `int` variable, property or parameter can hold. */
  type PhpInt = i: int | IsPhpInt(i)

  /** The number of distinct 64-bit integers. */
  const TWO_POW_64: int := 0x1_0000_0000_0000_0000

  /** Two's-complement wrap-around of an integer into the 64-bit range. */
  function Wrap(n: int): (r: PhpInt)
    ensures (r - n) % TWO_POW_64 == 0
  {
    (n - PHP_INT_MIN) % TWO_POW_64 + PHP_INT_MIN
  }

  /** Every multiple of 2^64 wraps to 0, and every one but 0 lies outside
      the 64-bit range. */
  lemma WrapMultiple(n: int)
    requires n % TWO_POW_64 == 0
    ensures Wrap(n) == 0
    ensures n != 0 ==> !IsPhpInt(n)
  {
    var k := n / TWO_POW_64;
    assert n == k * TWO_POW_64;
    assert k >= 1 ==> n >= TWO_POW_64;
    assert k <= -1 ==> n <= -TWO_POW_64;
    assert n - PHP_INT_MIN == k * TWO_POW_64 + (-PHP_INT_MIN);
    assert (n - PHP_INT_MIN) % TWO_POW_64 == -PHP_INT_MIN;
  }

  /** Clamping into the 64-bit range, as PHP does when it casts an integer
      string too large for an `int`. */
  function Saturate(n: int): PhpInt {
    if n > PHP_INT_MAX then PHP_INT_MAX else if n < PHP_INT_MIN then PHP_INT_MIN else n
  }

  /** PHP's `%` on integers truncates toward zero: the remainder takes the sign
      of the dividend. */
  function Mod(a: int, b: int): (r: int)
    requires b > 0
    ensures a >= 0 ==> r == a % b
    ensures a < 0 ==> r <= 0
  {
    if a >= 0 then a % b else -((-a) % b)
  }

  /** The ASCII digit for `d`. */
  function DigitChar(d: nat): (c: char)
    requires d < 10
    ensures IsDigit(c)
  {
    ('0' as int + d) as char
  }

  function DigitValue(c: char): (d: nat)
    requires IsDigit(c)
    ensures d < 10
  {
    c as int - '0' as int
  }

  /** `(string) $n` for a non-negative integer: its decimal digits, most
      significant first, with no leading zero. */
  function Render(n: nat): (r: string)
    ensures |r| >= 1
    ensures forall i :: 0 <= i < |r| ==> IsDigit(r[i])
    ensures (r[0] == '0') <==> (n == 0)
  {
    if n < 10 then [DigitChar(n)] else Render(n / 10) + [DigitChar(n % 10)]
  }

  /** `(string) $i` for any integer. */
  function RenderInt(i: int): (r: string)
    ensures |r| >= 1
  {
    if i < 0 then "-" + Render(-i) else Render(i)
  }

  /** The value of a string of decimal digits (an empty string reads as 0). */
  function ParseDigits(s: string): nat
    requires AllDigits(s)
  {
    if s == [] then 0 else ParseDigits(s[..|s| - 1]) * 10 + DigitValue(s[|s| - 1])
  }

  /** Reading back the decimal rendering of `n` gives `n`. */
  lemma {:induction false} ParseRender(n: nat)
    ensures ParseDigits(Render(n)) == n
  {
    var r := Render(n);
    if n < 10 {
      assert r[..|r| - 1] == [];
    } else {
      ParseRender(n / 10);
      assert r[..|r| - 1] == Render(n / 10);
    }
  }

  function Pow10(k: nat): (p: nat)
    ensures p >= 1
  {
    if k == 0 then 1 else 10 * Pow10(k - 1)
  }

  /** A number with `k + 1` decimal digits renders to exactly `k + 1` characters. */
  lemma {:induction false} RenderLength(n: nat, k: nat)
    requires Pow10(k) <= n < Pow10(k + 1)
    ensures |Render(n)| == k + 1
  {
    if k == 0 {
      assert n < 10;
    } else {
      assert n >= 10;
      assert Pow10(k) == 10 * Pow10(k - 1);
      assert Pow10(k + 1) == 10 * Pow10(k);
      assert Pow10(k - 1) <= n / 10 < Pow10(k);
      RenderLength(n / 10, k - 1);
    }
  }

  // ---------------------------------------------------------------- arrays

  /** A PHP array with string keys, in insertion order. */
  type Assoc<V> = seq<(string, V)>

  /** `$a[$k] ?? null`. */
  function Get<V>(a: Assoc<V>, k: string): Option<V> {
    if a == [] then None else if a[0].0 == k then Some(a[0].1) else Get(a[1..], k)
  }

  /** `array_keys($a)` as a set. */
  function Keys<V>(a: Assoc<V>): set<string> {
    set i | 0 <= i < |a| :: a[i].0
  }

  /** `array_key_exists($k, $a)`. */
  predicate HasKey<V>(a: Assoc<V>, k: string) {
    k in Keys(a)
  }

  /** No key occurs twice, as in every PHP array. */
  predicate KeysUnique<V>(a: Assoc<V>) {
    forall i, j :: 0 <= i < j < |a| ==> a[i].0 != a[j].0
  }

  /** `Get` finds exactly the keys that are present. */
  lemma {:induction false} GetPresent<V>(a: Assoc<V>, k: string)
    ensures Get(a, k).Some? <==> HasKey(a, k)
  {
    if a != [] && a[0].0 != k {
      GetPresent(a[1..], k);
      if HasKey(a, k) {
        var i :| 0 <= i < |a| && a[i].0 == k;
        assert a[1..][i - 1].0 == k;
      }
      if HasKey(a[1..], k) {
        var i :| 0 <= i < |a[1..]| && a[1..][i].0 == k;
        assert a[i + 1].0 == k;
      }
    } else if a != [] {
      assert a[0].0 == k;
    }
  }

  /** With unique keys, the entry at any position is the one `Get` finds. */
  lemma {:induction false} GetAt<V>(a: Assoc<V>, i: int)
    requires KeysUnique(a)
    requires 0 <= i < |a|
    ensures Get(a, a[i].0) == Some(a[i].1)
  {
    if i > 0 {
      assert a[0].0 != a[i].0;
      assert KeysUnique(a[1..]) by {
        forall p, q | 0 <= p < q < |a[1..]| ensures a[1..][p].0 != a[1..][q].0 {
          assert a[1..][p] == a[p + 1] && a[1..][q] == a[q + 1];
        }
      }
      assert a[1..][i - 1] == a[i];
      GetAt(a[1..], i - 1);
    }
  }

  /** Appending one pair adds exactly its key. */
  lemma KeysAppendOne<V>(a: Assoc<V>, k: string, v: V)
    ensures Keys(a + [(k, v)]) == Keys(a) + {k}
  {
    var b := a + [(k, v)];
    assert b[|a|].0 == k;
    forall x | x in Keys(a) ensures x in Keys(b) {
      var i :| 0 <= i < |a| && a[i].0 == x;
      assert b[i] == a[i];
    }
  }

  /** Joining two arrays with no key in common keeps every key unique. */
  lemma KeysAppend<V>(a: Assoc<V>, b: Assoc<V>)
    requires KeysUnique(a) && KeysUnique(b)
    requires Keys(a) !! Keys(b)
    ensures KeysUnique(a + b)
    ensures Keys(a + b) == Keys(a) + Keys(b)
  {
    var c := a + b;
    forall i, j | 0 <= i < j < |c| ensures c[i].0 != c[j].0 {
      if j < |a| {
        assert c[i] == a[i] && c[j] == a[j];
      } else if i >= |a| {
        assert c[i] == b[i - |a|] && c[j] == b[j - |a|];
      } else {
        assert c[i] == a[i] && c[j] == b[j - |a|];
        assert c[i].0 in Keys(a) && c[j].0 in Keys(b);
      }
    }
    forall x | x in Keys(a) ensures x in Keys(c) {
      var i :| 0 <= i < |a| && a[i].0 == x;
      assert c[i] == a[i];
    }
    forall x | x in Keys(b) ensures x in Keys(c) {
      var i :| 0 <= i < |b| && b[i].0 == x;
      assert c[|a| + i] == b[i];
    }
    forall x | x in Keys(c) ensures x in Keys(a) + Keys(b) {
      var i :| 0 <= i < |c| && c[i].0 == x;
      if i < |a| {
        assert c[i] == a[i];
      } else {
        assert c[i] == b[i - |a|];
      }
    }
  }

  /** `Get` on a concatenation looks in the left part first. */
  lemma {:induction false} GetAppend<V>(a: Assoc<V>, b: Assoc<V>, k: string)
    ensures Get(a + b, k) == (if Get(a, k).Some? then Get(a, k) else Get(b, k))
  {
    if a != [] {
      assert (a + b)[0] == a[0];
      assert (a + b)[1..] == a[1..] + b;
      GetAppend(a[1..], b, k);
    } else {
      assert a + b == b;
    }
  }

  /** `$a[$k] = $v`: overwrites the value in place when the key exists,
      otherwise appends the pair. */
  function Put<V>(a: Assoc<V>, k: string, v: V): (r: Assoc<V>)
    ensures HasKey(a, k) ==> |r| == |a|
    ensures !HasKey(a, k) ==> r == a + [(k, v)]
    ensures Keys(r) == Keys(a) + {k}
  {
    if a == [] then
      assert [(k, v)][0].0 == k;
      [(k, v)]
    else if a[0].0 == k then
      KeysCons(a);
      KeysCons([(k, v)] + a[1..]);
      assert ([(k, v)] + a[1..])[1..] == a[1..];
      [(k, v)] + a[1..]
    else
      var rest := Put(a[1..], k, v);
      assert HasKey(a, k) ==> HasKey(a[1..], k) by {
        if HasKey(a, k) {
          var i :| 0 <= i < |a| && a[i].0 == k;
          assert a[1..][i - 1].0 == k;
        }
      }
      assert !HasKey(a, k) ==> !HasKey(a[1..], k) by {
        if HasKey(a[1..], k) {
          var i :| 0 <= i < |a[1..]| && a[1..][i].0 == k;
          assert a[i + 1].0 == k;
        }
      }
      KeysCons(a);
      KeysCons([a[0]] + rest);
      assert ([a[0]] + rest)[1..] == rest;
      [a[0]] + rest
  }

  /** The keys of a non-empty array: the first one and those of the rest. */
  lemma KeysCons<V>(a: Assoc<V>)
    requires a != []
    ensures Keys(a) == {a[0].0} + Keys(a[1..])
  {
    forall x | x in Keys(a) ensures x in {a[0].0} + Keys(a[1..]) {
      var i :| 0 <= i < |a| && a[i].0 == x;
      if i > 0 {
        assert a[1..][i - 1].0 == x;
      }
    }
    forall x | x in Keys(a[1..]) ensures x in Keys(a) {
      var i :| 0 <= i < |a[1..]| && a[1..][i].0 == x;
      assert a[i + 1].0 == x;
    }
  }

  /** After `$a[$k] = $v`, reading `$k` gives `$v` and every other key reads as
      before. */
  lemma {:induction false} GetPut<V>(a: Assoc<V>, k: string, v: V, k': string)
    ensures Get(Put(a, k, v), k') == if k' == k then Some(v) else Get(a, k')
  {
    if a != [] && a[0].0 != k {
      GetPut(a[1..], k, v, k');
    }
  }

  /** `array_merge($a, $b)` for string-keyed arrays: each pair of `$b` is put
      into `$a` in order, so `$b` wins on shared keys. */
  function Merge<V>(a: Assoc<V>, b: Assoc<V>): (r: Assoc<V>)
    ensures Keys(r) == Keys(a) + Keys(b)
    decreases |b|
  {
    if b == [] then a
    else
      KeysCons(b);
      Merge(Put(a, b[0].0, b[0].1), b[1..])
  }

  /** A key reads from the second array when that array holds it, and from the
      first one otherwise. */
  lemma {:induction false} GetMerge<V>(a: Assoc<V>, b: Assoc<V>, k: string)
    requires KeysUnique(b)
    ensures Get(Merge(a, b), k) == if Get(b, k).Some? then Get(b, k) else Get(a, k)
    decreases |b|
  {
    if b != [] {
      var a' := Put(a, b[0].0, b[0].1);
      GetMerge(a', b[1..], k);
      GetPut(a, b[0].0, b[0].1, k);
      if b[0].0 == k {
        GetPresent(b[1..], k);
        assert forall i :: 0 <= i < |b[1..]| ==> b[1..][i] == b[i + 1];
      }
    }
  }

  /** When the arrays share no key, `array_merge` is concatenation. */
  lemma {:induction false} MergeDisjoint<V>(a: Assoc<V>, b: Assoc<V>)
    requires forall j :: 0 <= j < |b| ==> !HasKey(a, b[j].0)
    requires KeysUnique(b)
    ensures Merge(a, b) == a + b
    decreases |b|
  {
    if b != [] {
      var a' := a + [b[0]];
      assert Put(a, b[0].0, b[0].1) == a';
      forall j | 0 <= j < |b[1..]|
        ensures !HasKey(a', b[1..][j].0)
      {
        assert b[1..][j] == b[j + 1];
        assert !HasKey(a, b[j + 1].0);
        assert forall i :: 0 <= i < |a| ==> a'[i] == a[i];
      }
      MergeDisjoint(a', b[1..]);
      assert a' + b[1..] == a + b;
    }
  }

  /** `array_filter($a)` without a callback on an array of nullable strings:
      keeps, in order and under their keys, exactly the truthy values. */
  function ArrayFilter(a: Assoc<Option<string>>): (r: Assoc<string>)
    ensures |r| <= |a|
    ensures forall i :: 0 <= i < |r| ==> !Empty(r[i].1)
    ensures Keys(r) <= Keys(a)
    ensures forall i :: 0 <= i < |a| && Truthy(a[i].1) ==> (a[i].0, a[i].1.value) in r
    ensures forall p :: p in r ==> (p.0, Some(p.1)) in a
  {
    if a == [] then []
    else
      var rest := ArrayFilter(a[1..]);
      KeysCons(a);
      assert forall i :: 0 <= i < |a[1..]| ==> a[1..][i] == a[i + 1];
      assert forall p :: p in a[1..] ==> p in a;
      if Truthy(a[0].1) then [(a[0].0, a[0].1.value)] + rest else rest
  }

  /** What `array_filter` leaves of a single entry. */
  function Kept(k: string, v: Option<string>): Assoc<string> {
    if Truthy(v) then [(k, v.value)] else []
  }

  /** `Kept` of every entry, in order. */
  function KeptEach(a: Assoc<Option<string>>): Assoc<string> {
    if a == [] then [] else Kept(a[0].0, a[0].1) + KeptEach(a[1..])
  }

  /** `array_filter` is `Kept` entry by entry. */
  lemma {:induction false} ArrayFilterEntryByEntry(a: Assoc<Option<string>>)
    ensures ArrayFilter(a) == KeptEach(a)
  {
    if a != [] {
      ArrayFilterEntryByEntry(a[1..]);
    }
  }

  /** `array_filter` works entry by entry and keeps the order: filtering a
      concatenation is concatenating the filtered parts. */
  lemma {:induction false} ArrayFilterAppend(a: Assoc<Option<string>>, b: Assoc<Option<string>>)
    ensures ArrayFilter(a + b) == ArrayFilter(a) + ArrayFilter(b)
  {
    if a == [] {
      assert a + b == b;
    } else {
      assert (a + b)[0] == a[0];
      assert (a + b)[1..] == a[1..] + b;
      ArrayFilterAppend(a[1..], b);
    }
  }

  /** A single entry survives exactly when its value is truthy. */
  lemma ArrayFilterOne(k: string, v: Option<string>)
    ensures ArrayFilter([(k, v)]) == Kept(k, v)
  {
    assert [(k, v)][1..] == [];
  }

  /** A key survives `array_filter` exactly when its value is truthy, and then
      keeps that value. */
  lemma {:induction false} GetArrayFilter(a: Assoc<Option<string>>, k: string)
    requires KeysUnique(a)
    ensures Get(ArrayFilter(a), k)
         == match Get(a, k)
            case Some(v) => if Truthy(v) then Some(v.value) else None
            case None => None
  {
    if a != [] {
      assert KeysUnique(a[1..]) by {
        forall i, j | 0 <= i < j < |a[1..]| ensures a[1..][i].0 != a[1..][j].0 {
          assert a[1..][i] == a[i + 1] && a[1..][j] == a[j + 1];
        }
      }
      GetArrayFilter(a[1..], k);
      if a[0].0 == k {
        GetPresent(a[1..], k);
        assert forall i :: 0 <= i < |a[1..]| ==> a[1..][i] == a[i + 1];
        GetPresent(ArrayFilter(a[1..]), k);
      }
    }
  }
}

=== FILE: refund_order_data.dfy ===
/** `RefundOrderData`: the payload of `refund.do`, stored as given and checked
    against the same amount rules as a registration, minus the maximum. */
module RefundOrderData {
  import opened Wrappers
  import Php
  import opened Gateway
  import opened Exceptions
  import RegisterOrderData

  const MSG_ORDER_ID_REQUIRED: string := "Order ID is required"

  datatype RefundOrderData = RefundOrderData(orderId: string, amount: Php.PhpInt)

  /** Every rule of `validate()` holds. */
  predicate Valid(d: RefundOrderData) {
    && !Php.Empty(d.orderId)
    && d.amount >= MIN_AMOUNT
    && Php.Mod(d.amount, AMOUNT_STEP) == 0
  }

  /** `validate()`: the message of the first rule broken, or `None`. */
  function Violation(d: RefundOrderData): (r: Option<string>)
    ensures r.None? <==> Valid(d)
  {
    if Php.Empty(d.orderId) then Some(MSG_ORDER_ID_REQUIRED)
    else if d.amount < MIN_AMOUNT then Some(MSG_AMOUNT_MIN)
    else if Php.Mod(d.amount, AMOUNT_STEP) != 0 then Some(MSG_AMOUNT_MULTIPLE)
    else None
  }

  /** The rules of `validate()` as a table, in source order. */
  function Checks(d: RefundOrderData): seq<Check> {
    [ Check(!Php.Empty(d.orderId), MSG_ORDER_ID_REQUIRED),
      Check(d.amount >= MIN_AMOUNT, MSG_AMOUNT_MIN),
      Check(Php.Mod(d.amount, AMOUNT_STEP) == 0, MSG_AMOUNT_MULTIPLE) ]
  }

  lemma ViolationIsFirstFailure(d: RefundOrderData)
    ensures Violation(d) == FirstFailure(Checks(d))
  {
    var cs := Checks(d);
    FirstFailureCons(cs[0], cs[1..]);
    FirstFailureCons(cs[1], cs[2..]);
    FirstFailureCons(cs[2], cs[3..]);
    assert cs[1..] == [cs[1]] + cs[2..];
    assert cs[2..] == [cs[2]] + cs[3..];
    assert cs == [cs[0]] + cs[1..];
  }

  /** `new RefundOrderData(...)`: the record as given, or the validation
      exception for the first rule it breaks. */
  function Create(d: RefundOrderData): (r: Result<RefundOrderData, SatimException>)
    ensures r.Success? <==> Valid(d)
    ensures r.Success? ==> r.value == d
    ensures r.Failure? ==> Some(r.error.message) == FirstFailure(Checks(d))
    ensures r.Failure? ==> r.error == NewException(Validation, r.error.message)
  {
    ViolationIsFirstFailure(d);
    match Violation(d)
    case Some(msg) => Failure(NewException(Validation, msg))
    case None => Success(d)
  }

  /** A refundable amount is a whole number of dinars, at least 50. The
      truncating `%` never sees a negative amount, since the minimum rule
      runs first. */
  lemma ValidAmount(d: RefundOrderData)
    requires Valid(d)
    ensures d.amount >= 5000 && d.amount % 100 == 0
  {
  }

  /** An amount is refundable exactly when the register rules on amounts
      (minimum, maximum, multiple) accept it: the register maximum lies
      beyond every 64-bit amount, so leaving it out changes nothing. */
  lemma AmountRulesMatchRegister(orderId: string, amount: Php.PhpInt)
    requires !Php.Empty(orderId)
    ensures Create(RefundOrderData(orderId, amount)).Success?
        <==> (MIN_AMOUNT <= amount <= RegisterOrderData.MAX_AMOUNT && Php.Mod(amount, AMOUNT_STEP) == 0)
  {
  }

  /** `toArray()`. */
  function ToArray(d: RefundOrderData): Params {
    [("orderId", PStr(d.orderId)), ("amount", PInt(d.amount))]
  }

  /** The two parameters are exactly the stored fields, under distinct keys
      that are not the credential keys. */
  lemma ToArrayContents(d: RefundOrderData)
    ensures Php.Get(ToArray(d), "orderId") == Some(PStr(d.orderId))
    ensures Php.Get(ToArray(d), "amount") == Some(PInt(d.amount))
    ensures Php.Keys(ToArray(d)) == {"orderId", "amount"}
    ensures Php.KeysUnique(ToArray(d))
    ensures !Php.HasKey(ToArray(d), "userName") && !Php.HasKey(ToArray(d), "password")
  {
    var a := ToArray(d);
    assert a[0].0 == "orderId" && a[1].0 == "amount";
    Php.GetAt(a, 0);
    Php.GetAt(a, 1);
  }
}

=== FILE: refund_order_response.dfy ===
/** `RefundOrderResponse`: what `refund.do` answers. Only the lower-case
    `errorCode` and `errorMessage` keys are read, into typed parameters. */
module RefundOrderResponse {
  import opened Wrappers
  import opened Json
  import opened Exceptions
  import Php

  datatype RefundOrderResponse = RefundOrderResponse(errorCode: Php.PhpInt, errorMessage: Option<string>)

  predicate IsSuccessful(r: RefundOrderResponse) {
    r.errorCode == 0
  }

  /** The arguments `fromArray()` passes: `int $errorCode`, `?string $errorMessage`. */
  const ARGS: seq<Arg> := [
    Arg("errorCode", IntParam, ["errorCode"]),
    Arg("errorMessage", StringParam, ["errorMessage"])]

  /** The fields the constructor stores once both arguments bind: `errorCode`
      defaults to 0 and `errorMessage` to null. */
  function Read(m: Raw): (r: RefundOrderResponse)
    ensures r.errorCode == if Isset(m, "errorCode") then ToInt(m["errorCode"]) else 0
    ensures r.errorMessage == if Isset(m, "errorMessage") then Some(ToStr(m["errorMessage"])) else None
  {
    CoalesceOne(m, "errorCode");
    CoalesceOne(m, "errorMessage");
    RefundOrderResponse(IntOr(m, ["errorCode"], 0), OptStr(m, ["errorMessage"]))
  }

  /** `fromArray()`: the response, or the `TypeError` of the first argument
      whose parameter refuses the value found. */
  function FromArray(m: Raw): (r: Result<RefundOrderResponse, Error>)
    ensures r.Success? <==> forall i :: 0 <= i < |ARGS| ==> Binds(m, ARGS[i])
    ensures r.Success? ==> r.value == Read(m)
    ensures r.Failure? ==> exists i :: 0 <= i < |ARGS| && !Binds(m, ARGS[i]) && r.error == TypeError(ARGS[i].name)
                                       && forall j :: 0 <= j < i ==> Binds(m, ARGS[j])
  {
    match Unbound(m, ARGS)
    case Some(name) => Failure(TypeError(name))
    case None => Success(Read(m))
  }

  /** `fromArray()` key by key: a set `errorCode` its `int` parameter refuses
      is a `TypeError`, then an array or object under `errorMessage`;
      otherwise the response is read. */
  lemma FromArrayByKey(m: Raw)
    ensures FromArray(m)
         == if Isset(m, "errorCode") && !Accepts(IntParam, m["errorCode"]) then Failure(TypeError("errorCode"))
            else if Isset(m, "errorMessage") && !Accepts(StringParam, m["errorMessage"])
              then Failure(TypeError("errorMessage"))
            else Success(Read(m))
  {
    CoalesceOne(m, "errorCode");
    CoalesceOne(m, "errorMessage");
    assert ARGS[0].keys == ["errorCode"] && ARGS[1].keys == ["errorMessage"];
    if !Binds(m, ARGS[0]) {
      UnboundAt(m, ARGS, 0);
    } else if !Binds(m, ARGS[1]) {
      UnboundAt(m, ARGS, 1);
    }
  }

  /** An error code beyond the 64-bit range, as a number or as a string of
      digits, is a `TypeError` on `int $errorCode`. */
  lemma OutOfRangeCodeIsTypeError(m: Raw, n: int)
    requires !Php.IsPhpInt(n)
    ensures FromArray(m["errorCode" := JNum(n)]) == Failure(TypeError("errorCode"))
    ensures FromArray(m["errorCode" := JStr(Php.RenderInt(n))]) == Failure(TypeError("errorCode"))
  {
    IntStringRoundTrip(n);
    FromArrayByKey(m["errorCode" := JNum(n)]);
    FromArrayByKey(m["errorCode" := JStr(Php.RenderInt(n))]);
  }

  /** The body a gateway would send for `r`. */
  function Encode(r: RefundOrderResponse): Raw {
    var m := map["errorCode" := JNum(r.errorCode)];
    if r.errorMessage.Some? then m["errorMessage" := JStr(r.errorMessage.value)] else m
  }

  /** Every response survives encoding and reading back. */
  lemma RoundTrip(r: RefundOrderResponse)
    ensures FromArray(Encode(r)) == Success(r)
  {
    var m := Encode(r);
    assert m["errorCode"] == JNum(r.errorCode);
    FromArrayByKey(m);
  }

  /** The capitalised spellings are ignored, whatever they hold. */
  lemma CapitalisedKeysIgnored(m: Raw, code: JVal, msg: JVal)
    requires "ErrorCode" !in m && "ErrorMessage" !in m
    ensures FromArray(m["ErrorCode" := code]["ErrorMessage" := msg]) == FromArray(m)
  {
    var m' := m["ErrorCode" := code]["ErrorMessage" := msg];
    assert Isset(m', "errorCode") == Isset(m, "errorCode");
    assert Isset(m', "errorMessage") == Isset(m, "errorMessage");
    FromArrayByKey(m);
    FromArrayByKey(m');
  }

  /** A message sent as a JSON array or object cannot be passed to
      `?string $errorMessage`, even when the code is fine. */
  lemma ArrayMessageIsTypeError(m: Raw, items: seq<JVal>)
    requires !Isset(m, "errorCode") || Accepts(IntParam, m["errorCode"])
    ensures FromArray(m["errorMessage" := JArr(items)]) == Failure(TypeError("errorMessage"))
  {
    var m' := m["errorMessage" := JArr(items)];
    assert Isset(m', "errorCode") == Isset(m, "errorCode");
    FromArrayByKey(m');
  }

  /** An empty body reads as success with no message. */
  lemma EmptyBodyIsSuccess()
    ensures FromArray(map[]) == Success(RefundOrderResponse(0, None))
    ensures IsSuccessful(FromArray(map[]).value)
  {
    FromArrayByKey(map[]);
  }
}

=== FILE: register_order_data.dfy ===
/** `RegisterOrderData`: the payload of `register.do`. The constructor trims
    every string (and upper-cases the language), then validates the result
    with a fixed sequence of rules, throwing a validation exception carrying
    the message of the first rule that fails. */
module RegisterOrderData {
  import opened Wrappers
  import Php
  import opened Gateway
  import opened Exceptions

  /** The class constant: twenty nines. */
  const MAX_AMOUNT: int := 99999999999999999999
  const MAX_DESCRIPTION: nat := 512

  const MSG_ORDER_NUMBER: string := "Order number must be alphanumeric (A-Z, a-z, 0-9) and 1-10 characters"
  const MSG_AMOUNT_MAX: string := "Amount exceeds maximum allowed value (20 digits = 999,999,999,999,999,999.99 DA)"
  const MSG_CURRENCY: string := "Currency must be a 3-digit ISO 4217 code (e.g., \"012\" for DZD)"
  const MSG_RETURN_URL_REQUIRED: string := "Return URL is required"
  const MSG_RETURN_URL_INVALID: string := "Return URL must be a valid URL"
  const MSG_FAIL_URL: string := "Fail URL must be a valid URL"
  const MSG_DESCRIPTION: string := "Description must not exceed 512 characters"
  const MSG_TERMINAL_ID: string := "Terminal ID must be alphanumeric and 1-16 characters"

  /** `ucfirst('udf' . k) . ' must be alphanumeric and 1-20 characters'`. */
  function UdfMessage(k: nat): (m: string)
    requires 1 <= k <= 5
    ensures |m| == 45
  {
    "Udf" + [Php.DigitChar(k)] + " must be alphanumeric and 1-20 characters"
  }

  datatype RegisterOrderData = RegisterOrderData(
    orderNumber: string,
    amount: Php.PhpInt,
    currency: string,
    returnUrl: string,
    language: string,
    terminalId: string,
    failUrl: Option<string>,
    description: Option<string>,
    udf1: Option<string>,
    udf2: Option<string>,
    udf3: Option<string>,
    udf4: Option<string>,
    udf5: Option<string>)

  function Udfs(d: RegisterOrderData): seq<Option<string>> {
    [d.udf1, d.udf2, d.udf3, d.udf4, d.udf5]
  }

  /** `$x !== null ? trim($x) : null`. */
  function TrimOptional(v: Option<string>): (r: Option<string>)
    ensures r.Some? <==> v.Some?
    ensures r.Some? ==> Php.IsTrimmed(r.value)
    ensures r.Some? ==> r.value == Php.Trim(v.value)
  {
    match v
    case Some(s) => Some(Php.Trim(s))
    case None => None
  }

  /** The assignments at the top of the constructor. */
  function Normalize(d: RegisterOrderData): RegisterOrderData {
    RegisterOrderData(
      Php.Trim(d.orderNumber),
      d.amount,
      Php.Trim(d.currency),
      Php.Trim(d.returnUrl),
      Php.Upper(Php.Trim(d.language)),
      Php.Trim(d.terminalId),
      TrimOptional(d.failUrl),
      TrimOptional(d.description),
      TrimOptional(d.udf1),
      TrimOptional(d.udf2),
      TrimOptional(d.udf3),
      TrimOptional(d.udf4),
      TrimOptional(d.udf5))
  }

  predicate TrimmedOptional(v: Option<string>) {
    v.Some? ==> Php.IsTrimmed(v.value)
  }

  /** A record the constructor's normalisation leaves as it is: no string field
      starts or ends with whitespace and the language has no lower-case ASCII
      letter. */
  predicate IsNormal(d: RegisterOrderData) {
    && Php.IsTrimmed(d.orderNumber)
    && Php.IsTrimmed(d.currency)
    && Php.IsTrimmed(d.returnUrl)
    && Php.IsTrimmed(d.language) && Php.Upper(d.language) == d.language
    && Php.IsTrimmed(d.terminalId)
    && TrimmedOptional(d.failUrl)
    && TrimmedOptional(d.description)
    && TrimmedOptional(d.udf1) && TrimmedOptional(d.udf2) && TrimmedOptional(d.udf3)
    && TrimmedOptional(d.udf4) && TrimmedOptional(d.udf5)
  }

  /** Upper-casing does not change which ends are whitespace. */
  lemma UpperKeepsTrimmed(s: string)
    requires Php.IsTrimmed(s)
    ensures Php.IsTrimmed(Php.Upper(s))
  {
  }

  /** Normalisation yields a normal record and keeps the amount and which
      optionals are null. */
  lemma NormalizeIsNormal(d: RegisterOrderData)
    ensures IsNormal(Normalize(d))
    ensures Normalize(d).amount == d.amount
    ensures Normalize(d).failUrl.Some? <==> d.failUrl.Some?
    ensures Normalize(d).description.Some? <==> d.description.Some?
    ensures Normalize(d).udf1.Some? <==> d.udf1.Some?
    ensures Normalize(d).udf2.Some? <==> d.udf2.Some?
    ensures Normalize(d).udf3.Some? <==> d.udf3.Some?
    ensures Normalize(d).udf4.Some? <==> d.udf4.Some?
    ensures Normalize(d).udf5.Some? <==> d.udf5.Some?
  {
    UpperKeepsTrimmed(Php.Trim(d.language));
    Php.UpperIdempotent(Php.Trim(d.language));
  }

  lemma TrimOptionalKeepsTrimmed(v: Option<string>)
    requires TrimmedOptional(v)
    ensures TrimOptional(v) == v
  {
    if v.Some? {
      Php.TrimKeepsTrimmed(v.value);
    }
  }

  /** Normalisation does nothing to a record that is already normal, so
      normalising twice is normalising once. */
  lemma NormalizeFixesNormal(d: RegisterOrderData)
    ensures IsNormal(d) ==> Normalize(d) == d
    ensures Normalize(Normalize(d)) == Normalize(d)
  {
    if IsNormal(d) {
      Php.TrimKeepsTrimmed(d.orderNumber);
      Php.TrimKeepsTrimmed(d.currency);
      Php.TrimKeepsTrimmed(d.returnUrl);
      Php.TrimKeepsTrimmed(d.language);
      Php.TrimKeepsTrimmed(d.terminalId);
      TrimOptionalKeepsTrimmed(d.failUrl);
      TrimOptionalKeepsTrimmed(d.description);
      TrimOptionalKeepsTrimmed(d.udf1);
      TrimOptionalKeepsTrimmed(d.udf2);
      TrimOptionalKeepsTrimmed(d.udf3);
      TrimOptionalKeepsTrimmed(d.udf4);
      TrimOptionalKeepsTrimmed(d.udf5);
    }
    var n := Normalize(d);
    NormalizeIsNormal(d);
    Php.TrimKeepsTrimmed(n.orderNumber);
    Php.TrimKeepsTrimmed(n.currency);
    Php.TrimKeepsTrimmed(n.returnUrl);
    Php.TrimKeepsTrimmed(n.language);
    Php.TrimKeepsTrimmed(n.terminalId);
    TrimOptionalKeepsTrimmed(n.failUrl);
    TrimOptionalKeepsTrimmed(n.description);
    TrimOptionalKeepsTrimmed(n.udf1);
    TrimOptionalKeepsTrimmed(n.udf2);
    TrimOptionalKeepsTrimmed(n.udf3);
    TrimOptionalKeepsTrimmed(n.udf4);
    TrimOptionalKeepsTrimmed(n.udf5);
  }

  // ---------------------------------------------------------------- validate()

  /** A user-defined field is either null or matches `^[A-Za-z0-9]{1,20}$`. */
  predicate UdfOk(v: Option<string>) {
    v.Some? ==> Php.MatchesAlnum(v.value, 1, 20)
  }

  /** The `foreach` over `udf1`..`udf5`, starting at field number `k`. */
  function UdfViolation(udfs: seq<Option<string>>, k: nat): (r: Option<string>)
    requires 1 <= k && k + |udfs| <= 6
    ensures r.None? <==> forall i :: 0 <= i < |udfs| ==> UdfOk(udfs[i])
    decreases |udfs|
  {
    if udfs == [] then None
    else if udfs[0].Some? && !Php.MatchesAlnum(udfs[0].value, 1, 20) then Some(UdfMessage(k))
    else
      var r := UdfViolation(udfs[1..], k + 1);
      assert forall i :: 0 <= i < |udfs[1..]| ==> udfs[1..][i] == udfs[i + 1];
      r
  }

  /** Every rule `validate()` enforces, as one conjunction. */
  predicate Valid(d: RegisterOrderData, validUrl: string -> bool) {
    && Php.MatchesAlnum(d.orderNumber, 1, 10)
    && MIN_AMOUNT <= d.amount <= MAX_AMOUNT
    && Php.Mod(d.amount, AMOUNT_STEP) == 0
    && Php.MatchesDigits(d.currency, 3, 3)
    && !Php.Empty(d.returnUrl)
    && validUrl(d.returnUrl)
    && (d.failUrl.Some? ==> validUrl(d.failUrl.value))
    && (d.description.Some? ==> |d.description.value| <= MAX_DESCRIPTION)
    && d.language in VALID_LANGUAGES
    && Php.MatchesAlnum(d.terminalId, 1, 16)
    && UdfOk(d.udf1) && UdfOk(d.udf2) && UdfOk(d.udf3) && UdfOk(d.udf4) && UdfOk(d.udf5)
  }

  /** `validate()` on an already normalised record: the message of the first
      rule broken, or `None`. `validUrl` stands for `filter_var(..., FILTER_VALIDATE_URL)`. */
  function Violation(d: RegisterOrderData, validUrl: string -> bool): (r: Option<string>)
    ensures r.None? <==> Valid(d, validUrl)
  {
    match ScalarViolation(d, validUrl)
    case Some(msg) => Some(msg)
    case None =>
      var us := Udfs(d);
      assert us[0] == d.udf1 && us[1] == d.udf2 && us[2] == d.udf3 && us[3] == d.udf4 && us[4] == d.udf5;
      UdfViolation(us, 1)
  }

  /** The eleven `if`s of `validate()` before the loop over the user-defined
      fields, in three runs. */
  function ScalarViolation(d: RegisterOrderData, validUrl: string -> bool): Option<string> {
    FirstOf(OrderAndAmountViolation(d), FirstOf(CurrencyAndUrlViolation(d, validUrl), DetailViolation(d)))
  }

  /** Rules 1 to 4: the order number and the amount. */
  function OrderAndAmountViolation(d: RegisterOrderData): Option<string> {
    if !Php.MatchesAlnum(d.orderNumber, 1, 10) then Some(MSG_ORDER_NUMBER)
    else if d.amount < MIN_AMOUNT then Some(MSG_AMOUNT_MIN)
    else if d.amount > MAX_AMOUNT then Some(MSG_AMOUNT_MAX)
    else if Php.Mod(d.amount, AMOUNT_STEP) != 0 then Some(MSG_AMOUNT_MULTIPLE)
    else None
  }

  /** Rules 5 to 8: the currency and the two URLs. */
  function CurrencyAndUrlViolation(d: RegisterOrderData, validUrl: string -> bool): Option<string> {
    if !Php.MatchesDigits(d.currency, 3, 3) then Some(MSG_CURRENCY)
    else if Php.Empty(d.returnUrl) then Some(MSG_RETURN_URL_REQUIRED)
    else if !validUrl(d.returnUrl) then Some(MSG_RETURN_URL_INVALID)
    else if d.failUrl.Some? && !validUrl(d.failUrl.value) then Some(MSG_FAIL_URL)
    else None
  }

  /** Rules 9 to 11: the description, the language and the terminal. */
  function DetailViolation(d: RegisterOrderData): Option<string> {
    if d.description.Some? && |d.description.value| > MAX_DESCRIPTION then Some(MSG_DESCRIPTION)
    else if d.language !in VALID_LANGUAGES then Some(MSG_LANGUAGE)
    else if !Php.MatchesAlnum(d.terminalId, 1, 16) then Some(MSG_TERMINAL_ID)
    else None
  }

  /** The rules of `validate()` as a table, in checking order. */
  function Checks(d: RegisterOrderData, validUrl: string -> bool): seq<Check> {
    ScalarChecks(d, validUrl) + UdfChecks(Udfs(d), 1)
  }

  /** Rules 1 to 11: everything before the user-defined fields. */
  function ScalarChecks(d: RegisterOrderData, validUrl: string -> bool): (cs: seq<Check>)
    ensures |cs| == 11
  {
    OrderAndAmountChecks(d) + (CurrencyAndUrlChecks(d, validUrl) + DetailChecks(d))
  }

  function OrderAndAmountChecks(d: RegisterOrderData): (cs: seq<Check>)
    ensures |cs| == 4
  {
    [ Check(Php.MatchesAlnum(d.orderNumber, 1, 10), MSG_ORDER_NUMBER),
      Check(d.amount >= MIN_AMOUNT, MSG_AMOUNT_MIN),
      Check(d.amount <= MAX_AMOUNT, MSG_AMOUNT_MAX),
      Check(Php.Mod(d.amount, AMOUNT_STEP) == 0, MSG_AMOUNT_MULTIPLE) ]
  }

  function CurrencyAndUrlChecks(d: RegisterOrderData, validUrl: string -> bool): (cs: seq<Check>)
    ensures |cs| == 4
  {
    [ Check(Php.MatchesDigits(d.currency, 3, 3), MSG_CURRENCY),
      Check(!Php.Empty(d.returnUrl), MSG_RETURN_URL_REQUIRED),
      Check(validUrl(d.returnUrl), MSG_RETURN_URL_INVALID),
      Check(d.failUrl.None? || validUrl(d.failUrl.value), MSG_FAIL_URL) ]
  }

  function DetailChecks(d: RegisterOrderData): (cs: seq<Check>)
    ensures |cs| == 3
  {
    [ Check(d.description.None? || |d.description.value| <= MAX_DESCRIPTION, MSG_DESCRIPTION),
      Check(d.language in VALID_LANGUAGES, MSG_LANGUAGE),
      Check(Php.MatchesAlnum(d.terminalId, 1, 16), MSG_TERMINAL_ID) ]
  }

  /** Rules 12 to 16: user-defined field `k` onwards. */
  function UdfChecks(udfs: seq<Option<string>>, k: nat): (cs: seq<Check>)
    requires 1 <= k && k + |udfs| <= 6
    ensures |cs| == |udfs|
    decreases |udfs|
  {
    if udfs == [] then []
    else [Check(UdfOk(udfs[0]), UdfMessage(k))] + UdfChecks(udfs[1..], k + 1)
  }

  /** The `foreach` over the user-defined fields reports the first failing one. */
  lemma {:induction false} UdfChecksAgree(udfs: seq<Option<string>>, k: nat)
    requires 1 <= k && k + |udfs| <= 6
    ensures UdfViolation(udfs, k) == FirstFailure(UdfChecks(udfs, k))
    decreases |udfs|
  {
    if udfs == [] {
      assert UdfChecks(udfs, k) == [];
    } else {
      var c := Check(UdfOk(udfs[0]), UdfMessage(k));
      var rest := UdfChecks(udfs[1..], k + 1);
      UdfStep(udfs, k);
      UdfChecksAgree(udfs[1..], k + 1);
      FirstFailureCons(c, rest);
      calc {
        FirstFailure(UdfChecks(udfs, k));
        FirstFailure([c] + rest);
        if !c.passes then Some(c.message) else FirstFailure(rest);
        if !c.passes then Some(c.message) else UdfViolation(udfs[1..], k + 1);
        UdfViolation(udfs, k);
      }
    }
  }

  /** One field of the loop, seen both ways. */
  lemma UdfStep(udfs: seq<Option<string>>, k: nat)
    requires 1 <= k && k + |udfs| <= 6 && udfs != []
    ensures UdfChecks(udfs, k) == [Check(UdfOk(udfs[0]), UdfMessage(k))] + UdfChecks(udfs[1..], k + 1)
    ensures UdfViolation(udfs, k) == if !UdfOk(udfs[0]) then Some(UdfMessage(k)) else UdfViolation(udfs[1..], k + 1)
  {
  }

  /** Entry `i` of the user-defined-field rules checks field `k + i`. */
  lemma {:induction false} UdfCheckAt(udfs: seq<Option<string>>, k: nat, i: nat)
    requires 1 <= k && k + |udfs| <= 6
    requires i < |udfs|
    ensures UdfChecks(udfs, k)[i] == Check(UdfOk(udfs[i]), UdfMessage(k + i))
    decreases |udfs|
  {
    if i > 0 {
      UdfCheckAt(udfs[1..], k + 1, i - 1);
    }
  }

  /** `validate()` reports exactly the message of the first rule in the table
      that fails, and nothing when every rule holds. */
  lemma ViolationIsFirstFailure(d: RegisterOrderData, validUrl: string -> bool)
    ensures Violation(d, validUrl) == FirstFailure(Checks(d, validUrl))
  {
    ScalarViolationIsFirstFailure(d, validUrl);
    UdfChecksAgree(Udfs(d), 1);
    FirstFailureAppend(ScalarChecks(d, validUrl), UdfChecks(Udfs(d), 1));
  }

  /** The same for the eleven rules before the loop. */
  lemma ScalarViolationIsFirstFailure(d: RegisterOrderData, validUrl: string -> bool)
    ensures ScalarViolation(d, validUrl) == FirstFailure(ScalarChecks(d, validUrl))
  {
    OrderAndAmountAgree(d);
    CurrencyAndUrlAgree(d, validUrl);
    DetailAgree(d);
    FirstFailureAppend(CurrencyAndUrlChecks(d, validUrl), DetailChecks(d));
    FirstFailureAppend(OrderAndAmountChecks(d), CurrencyAndUrlChecks(d, validUrl) + DetailChecks(d));
  }

  lemma OrderAndAmountAgree(d: RegisterOrderData)
    ensures OrderAndAmountViolation(d) == FirstFailure(OrderAndAmountChecks(d))
  {
    var cs := OrderAndAmountChecks(d);
    if !cs[0].passes {
      FirstFailureAt(cs, 0);
    } else if !cs[1].passes {
      FirstFailureAt(cs, 1);
    } else if !cs[3].passes {
      FirstFailureAt(cs, 3);
    }
  }

  lemma CurrencyAndUrlAgree(d: RegisterOrderData, validUrl: string -> bool)
    ensures CurrencyAndUrlViolation(d, validUrl) == FirstFailure(CurrencyAndUrlChecks(d, validUrl))
  {
    var cs := CurrencyAndUrlChecks(d, validUrl);
    if !cs[0].passes {
      FirstFailureAt(cs, 0);
    } else if !cs[1].passes {
      FirstFailureAt(cs, 1);
    } else if !cs[2].passes {
      FirstFailureAt(cs, 2);
    } else if !cs[3].passes {
      FirstFailureAt(cs, 3);
    }
  }

  lemma DetailAgree(d: RegisterOrderData)
    ensures DetailViolation(d) == FirstFailure(DetailChecks(d))
  {
    var cs := DetailChecks(d);
    if !cs[0].passes {
      FirstFailureAt(cs, 0);
    } else if !cs[1].passes {
      FirstFailureAt(cs, 1);
    } else if !cs[2].passes {
      FirstFailureAt(cs, 2);
    }
  }

  // ---------------------------------------------------------------- constructor

  /** `new RegisterOrderData(...)` on raw arguments: the normalised record, or
      the validation exception for the first rule it breaks. */
  function Create(d: RegisterOrderData, validUrl: string -> bool): (r: Result<RegisterOrderData, SatimException>)
    ensures r.Success? <==> Valid(Normalize(d), validUrl)
    ensures r.Success? ==> r.value == Normalize(d)
    ensures r.Failure? ==> Some(r.error.message) == FirstFailure(Checks(Normalize(d), validUrl))
    ensures r.Failure? ==> r.error == NewException(Validation, r.error.message)
  {
    var n := Normalize(d);
    ViolationIsFirstFailure(n, validUrl);
    match Violation(n, validUrl)
    case Some(msg) => Failure(NewException(Validation, msg))
    case None => Success(n)
  }

  /** The constructor with PHP's named and defaulted arguments. */
  function New(
    orderNumber: string, amount: Php.PhpInt, currency: string, returnUrl: string,
    language: string, terminalId: string, validUrl: string -> bool,
    failUrl: Option<string> := None, description: Option<string> := None,
    udf1: Option<string> := None, udf2: Option<string> := None, udf3: Option<string> := None,
    udf4: Option<string> := None, udf5: Option<string> := None): Result<RegisterOrderData, SatimException>
  {
    Create(RegisterOrderData(orderNumber, amount, currency, returnUrl, language, terminalId,
                             failUrl, description, udf1, udf2, udf3, udf4, udf5), validUrl)
  }

  /** `lo` to `hi` characters, all in `[A-Za-z0-9]`. */
  predicate AlnumField(s: string, lo: nat, hi: nat) {
    lo <= |s| <= hi && forall i :: 0 <= i < |s| ==> Php.IsAlnum(s[i])
  }

  /** An optional field that is null or `lo` to `hi` alphanumerics. */
  predicate OptionalAlnumField(v: Option<string>, lo: nat, hi: nat) {
    v.Some? ==> AlnumField(v.value, lo, hi)
  }

  lemma OptionalMatch(v: Option<string>, lo: nat, hi: nat)
    requires TrimmedOptional(v)
    requires v.Some? ==> Php.MatchesAlnum(v.value, lo, hi)
    ensures OptionalAlnumField(v, lo, hi)
  {
    if v.Some? {
      Php.MatchesAlnumOnTrimmed(v.value, lo, hi);
    }
  }

  /** What a successfully constructed record guarantees about its scalar
      fields, in plain terms. */
  lemma CreatedIsWellFormed(d: RegisterOrderData, validUrl: string -> bool)
    requires Create(d, validUrl).Success?
    ensures var n := Create(d, validUrl).value;
      && AlnumField(n.orderNumber, 1, 10)
      && n.amount >= 5000 && n.amount % 100 == 0 && n.amount <= MAX_AMOUNT
      && |n.currency| == 3 && (forall i :: 0 <= i < 3 ==> Php.IsDigit(n.currency[i]))
      && n.returnUrl != "" && validUrl(n.returnUrl)
      && (n.failUrl.Some? ==> validUrl(n.failUrl.value))
      && (n.description.Some? ==> |n.description.value| <= 512)
      && n.language in {"FR", "EN", "AR"}
      && AlnumField(n.terminalId, 1, 16)
  {
    NormalizeIsNormal(d);
    ValidScalarsWellFormed(Normalize(d), validUrl);
  }

  lemma ValidScalarsWellFormed(n: RegisterOrderData, validUrl: string -> bool)
    requires IsNormal(n) && Valid(n, validUrl)
    ensures && AlnumField(n.orderNumber, 1, 10)
            && n.amount >= 5000 && n.amount % 100 == 0 && n.amount <= MAX_AMOUNT
            && |n.currency| == 3 && (forall i :: 0 <= i < 3 ==> Php.IsDigit(n.currency[i]))
            && n.returnUrl != "" && validUrl(n.returnUrl)
            && (n.failUrl.Some? ==> validUrl(n.failUrl.value))
            && (n.description.Some? ==> |n.description.value| <= 512)
            && n.language in {"FR", "EN", "AR"}
            && AlnumField(n.terminalId, 1, 16)
  {
    Php.MatchesAlnumOnTrimmed(n.orderNumber, 1, 10);
    Php.MatchesAlnumOnTrimmed(n.terminalId, 1, 16);
    Php.MatchesDigitsOnTrimmed(n.currency, 3, 3);
    assert Php.DigitBody(n.currency, 3, 3);
  }

  /** Every user-defined field of a constructed record is null or 1 to 20
      alphanumerics. */
  lemma CreatedUdfsWellFormed(d: RegisterOrderData, validUrl: string -> bool)
    requires Create(d, validUrl).Success?
    ensures var n := Create(d, validUrl).value;
      && OptionalAlnumField(n.udf1, 1, 20) && OptionalAlnumField(n.udf2, 1, 20)
      && OptionalAlnumField(n.udf3, 1, 20) && OptionalAlnumField(n.udf4, 1, 20)
      && OptionalAlnumField(n.udf5, 1, 20)
  {
    var n := Normalize(d);
    NormalizeIsNormal(d);
    OptionalMatch(n.udf1, 1, 20);
    OptionalMatch(n.udf2, 1, 20);
    OptionalMatch(n.udf3, 1, 20);
    OptionalMatch(n.udf4, 1, 20);
    OptionalMatch(n.udf5, 1, 20);
  }

  /** Only the first broken rule is reported: an amount below the minimum (say
      4950, which is also not a multiple of 100) gets the minimum message. */
  lemma AmountMinimumReportedFirst(d: RegisterOrderData, validUrl: string -> bool)
    requires Php.MatchesAlnum(Php.Trim(d.orderNumber), 1, 10)
    requires d.amount < MIN_AMOUNT
    ensures Create(d, validUrl) == Failure(NewException(Validation, MSG_AMOUNT_MIN))
  {
  }

  /** PHP integers are 64-bit, so every amount that reaches the constructor
      is below twenty nines: whatever else is wrong with the record, the
      maximum message is never the one reported. */
  lemma MaximumNeverReportedFor64BitAmounts(d: RegisterOrderData, validUrl: string -> bool)
    ensures Violation(d, validUrl) != Some(MSG_AMOUNT_MAX)
    ensures Create(d, validUrl).Failure? ==> Create(d, validUrl).error.message != MSG_AMOUNT_MAX
  {
    NotAmountMax(d, validUrl);
    NotAmountMax(Normalize(d), validUrl);
  }

  lemma NotAmountMax(d: RegisterOrderData, validUrl: string -> bool)
    requires d.amount <= MAX_AMOUNT
    ensures Violation(d, validUrl) != Some(MSG_AMOUNT_MAX)
  {
    assert |MSG_AMOUNT_MAX| == 80;
    if ScalarViolation(d, validUrl).None? {
      UdfViolationLength(Udfs(d), 1);
    }
  }

  /** Every user-defined-field message is 45 characters long. */
  lemma {:induction false} UdfViolationLength(udfs: seq<Option<string>>, k: nat)
    requires 1 <= k && k + |udfs| <= 6
    ensures UdfViolation(udfs, k).Some? ==> |UdfViolation(udfs, k).value| == 45
    decreases |udfs|
  {
    if udfs != [] && UdfOk(udfs[0]) {
      UdfViolationLength(udfs[1..], k + 1);
    }
  }

  /** When everything up to user-defined field `k` holds and field `k` is bad,
      `validate()` reports field `k` by name. */
  lemma FirstBadUdfReported(n: RegisterOrderData, validUrl: string -> bool, k: nat)
    requires 1 <= k <= 5
    requires forall j :: 0 <= j < 10 + k ==> Checks(n, validUrl)[j].passes
    requires !UdfOk(Udfs(n)[k - 1])
    ensures Violation(n, validUrl) == Some(UdfMessage(k))
  {
    var sc := ScalarChecks(n, validUrl);
    var uc := UdfChecks(Udfs(n), 1);
    var cs := sc + uc;
    assert cs == Checks(n, validUrl);
    UdfCheckAt(Udfs(n), 1, k - 1);
    assert cs[10 + k] == uc[k - 1];
    FirstFailureAt(cs, 10 + k);
    ViolationIsFirstFailure(n, validUrl);
  }

  /** The description limit counts code points after trimming: the ninth
      rule the constructor checks, the description rule, passes exactly when
      the trimmed description is at most 512 long, so surrounding whitespace
      never counts against it. */
  lemma DescriptionMeasuredAfterTrim(d: RegisterOrderData, validUrl: string -> bool)
    requires d.description.Some?
    ensures Checks(Normalize(d), validUrl)[8].passes <==> |Php.Trim(d.description.value)| <= MAX_DESCRIPTION
    ensures Checks(Normalize(d), validUrl)[8].message == MSG_DESCRIPTION
  {
    DescriptionIsNinthCheck(Normalize(d), validUrl);
    assert Normalize(d).description == TrimOptional(d.description);
  }

  /** The ninth entry of the rule table is the description rule. */
  lemma DescriptionIsNinthCheck(n: RegisterOrderData, validUrl: string -> bool)
    ensures Checks(n, validUrl)[8] == Check(n.description.None? || |n.description.value| <= MAX_DESCRIPTION, MSG_DESCRIPTION)
  {
    var dc := DetailChecks(n);
    var rest := CurrencyAndUrlChecks(n, validUrl) + dc;
    assert rest[4] == dc[0];
    var sc := OrderAndAmountChecks(n) + rest;
    assert sc == ScalarChecks(n, validUrl) && sc[8] == rest[4];
    assert Checks(n, validUrl)[8] == sc[8];
  }

  // ---------------------------------------------------------------- toArray()

  /** The `array_filter`ed list encoded into `jsonParams`. */
  function JsonParams(d: RegisterOrderData): Php.Assoc<string> {
    Php.ArrayFilter([
      ("force_terminal_id", Some(d.terminalId)),
      ("udf1", d.udf1), ("udf2", d.udf2), ("udf3", d.udf3), ("udf4", d.udf4), ("udf5", d.udf5)])
  }

  /** `toArray()`: the six fixed parameters, then `failUrl` and `description`
      when they are not null. */
  function ToArray(d: RegisterOrderData): Params {
    WithOptionals(FixedParams(d), d)
  }

  /** The two conditional assignments at the end of `toArray()`. */
  function WithOptionals(data: Params, d: RegisterOrderData): Params {
    var data := if d.failUrl.Some? then Php.Put(data, "failUrl", PStr(d.failUrl.value)) else data;
    if d.description.Some? then Php.Put(data, "description", PStr(d.description.value)) else data
  }

  /** The six parameters every register request carries, in order. */
  function FixedParams(d: RegisterOrderData): Params {
    [ ("orderNumber", PStr(d.orderNumber)),
      ("amount", PInt(d.amount)),
      ("currency", PStr(d.currency)),
      ("returnUrl", PStr(d.returnUrl)),
      ("language", PStr(d.language)),
      ("jsonParams", PJson(JsonParams(d))) ]
  }

  /** `toArray()` is the six fixed parameters followed by `failUrl` and then
      `description`, each present exactly when it is not null. */
  lemma ToArrayLayout(d: RegisterOrderData)
    ensures ToArray(d) == FixedParams(d) + OptionalParams(d)
  {
    FixedParamsKeys(d);
    WithOptionalsAppends(FixedParams(d), d);
  }

  /** On data without either optional key, both assignments append. */
  lemma WithOptionalsAppends(data: Params, d: RegisterOrderData)
    requires !Php.HasKey(data, "failUrl") && !Php.HasKey(data, "description")
    ensures WithOptionals(data, d) == data + OptionalParams(d)
  {
    var g := if d.failUrl.Some? then data + [("failUrl", PStr(d.failUrl.value))] else data;
    if d.failUrl.Some? {
      Php.KeysAppendOne(data, "failUrl", PStr(d.failUrl.value));
    }
    assert !Php.HasKey(g, "description");
  }

  /** The optional tail of `toArray()`. */
  function OptionalParams(d: RegisterOrderData): Params {
    (if d.failUrl.Some? then [("failUrl", PStr(d.failUrl.value))] else [])
    + (if d.description.Some? then [("description", PStr(d.description.value))] else [])
  }

  /** No key of `toArray()` repeats, neither credential key is among them, and
      `failUrl` and `description` are present exactly when not null. */
  lemma ToArrayKeys(d: RegisterOrderData)
    ensures Php.KeysUnique(ToArray(d))
    ensures !Php.HasKey(ToArray(d), "userName") && !Php.HasKey(ToArray(d), "password")
    ensures Php.HasKey(ToArray(d), "failUrl") <==> d.failUrl.Some?
    ensures Php.HasKey(ToArray(d), "description") <==> d.description.Some?
  {
    FixedParamsKeys(d);
    WithOptionalsKeys(FixedParams(d), d);
    WithOptionalsNoCredentials(FixedParams(d), d);
  }

  /** The keys after the optional assignments, on any data holding the six
      fixed keys once each. */
  lemma WithOptionalsKeys(data: Params, d: RegisterOrderData)
    requires Php.KeysUnique(data)
    requires Php.Keys(data) == {"orderNumber", "amount", "currency", "returnUrl", "language", "jsonParams"}
    ensures Php.KeysUnique(WithOptionals(data, d))
    ensures Php.Keys(WithOptionals(data, d)) == Php.Keys(data) + Php.Keys(OptionalParams(d))
    ensures Php.HasKey(WithOptionals(data, d), "failUrl") <==> d.failUrl.Some?
    ensures Php.HasKey(WithOptionals(data, d), "description") <==> d.description.Some?
  {
    WithOptionalsAppends(data, d);
    OptionalParamsKeys(d);
    Php.KeysAppend(data, OptionalParams(d));
  }

  lemma WithOptionalsNoCredentials(data: Params, d: RegisterOrderData)
    requires Php.Keys(data) == {"orderNumber", "amount", "currency", "returnUrl", "language", "jsonParams"}
    requires Php.Keys(WithOptionals(data, d)) == Php.Keys(data) + Php.Keys(OptionalParams(d))
    ensures !Php.HasKey(WithOptionals(data, d), "userName") && !Php.HasKey(WithOptionals(data, d), "password")
  {
    OptionalParamsKeys(d);
  }

  /** The fixed six keys, each once. */
  lemma FixedParamsKeys(d: RegisterOrderData)
    ensures Php.Keys(FixedParams(d))
         == {"orderNumber", "amount", "currency", "returnUrl", "language", "jsonParams"}
    ensures Php.KeysUnique(FixedParams(d))
  {
    var f := FixedParams(d);
    assert f[0].0 == "orderNumber" && f[1].0 == "amount" && f[2].0 == "currency";
    assert f[3].0 == "returnUrl" && f[4].0 == "language" && f[5].0 == "jsonParams";
  }

  /** The optional tail holds `failUrl` and `description` exactly when set. */
  lemma OptionalParamsKeys(d: RegisterOrderData)
    ensures Php.Keys(OptionalParams(d))
         == (if d.failUrl.Some? then {"failUrl"} else {}) + (if d.description.Some? then {"description"} else {})
    ensures Php.KeysUnique(OptionalParams(d))
  {
    var t := OptionalParams(d);
    if d.failUrl.Some? && d.description.Some? {
      assert t[0].0 == "failUrl" && t[1].0 == "description";
    } else if d.failUrl.Some? {
      assert t[0].0 == "failUrl";
    } else if d.description.Some? {
      assert t[0].0 == "description";
    }
  }

  /** `jsonParams` holds `force_terminal_id` and `udf1`..`udf5`, in that
      order, exactly when their values are truthy: a null, empty or `"0"`
      value is dropped. */
  lemma JsonParamsContents(d: RegisterOrderData)
    ensures JsonParams(d) == Php.Kept("force_terminal_id", Some(d.terminalId))
                             + (Php.Kept("udf1", d.udf1) + (Php.Kept("udf2", d.udf2) + (Php.Kept("udf3", d.udf3)
                             + (Php.Kept("udf4", d.udf4) + Php.Kept("udf5", d.udf5)))))
    ensures Php.Get(JsonParams(d), "force_terminal_id")
         == if Php.Empty(d.terminalId) then None else Some(d.terminalId)
    ensures Php.Get(JsonParams(d), "udf1") == if Php.Truthy(d.udf1) then Some(d.udf1.value) else None
    ensures Php.Get(JsonParams(d), "udf2") == if Php.Truthy(d.udf2) then Some(d.udf2.value) else None
    ensures Php.Get(JsonParams(d), "udf3") == if Php.Truthy(d.udf3) then Some(d.udf3.value) else None
    ensures Php.Get(JsonParams(d), "udf4") == if Php.Truthy(d.udf4) then Some(d.udf4.value) else None
    ensures Php.Get(JsonParams(d), "udf5") == if Php.Truthy(d.udf5) then Some(d.udf5.value) else None
  {
    var e := [
      ("force_terminal_id", Some(d.terminalId)),
      ("udf1", d.udf1), ("udf2", d.udf2), ("udf3", d.udf3), ("udf4", d.udf4), ("udf5", d.udf5)];
    assert e[0].0 == "force_terminal_id" && e[1].0 == "udf1" && e[2].0 == "udf2";
    assert e[3].0 == "udf3" && e[4].0 == "udf4" && e[5].0 == "udf5";
    assert Php.KeysUnique(e);
    Php.GetAt(e, 0);
    Php.GetAt(e, 1);
    Php.GetAt(e, 2);
    Php.GetAt(e, 3);
    Php.GetAt(e, 4);
    Php.GetAt(e, 5);
    Php.GetArrayFilter(e, "force_terminal_id");
    Php.GetArrayFilter(e, "udf1");
    Php.GetArrayFilter(e, "udf2");
    Php.GetArrayFilter(e, "udf3");
    Php.GetArrayFilter(e, "udf4");
    Php.GetArrayFilter(e, "udf5");
    FilterEntryByEntry(e);
  }

  /** Six entries filtered one at a time. */
  lemma FilterEntryByEntry(e: Php.Assoc<Option<string>>)
    requires |e| == 6
    ensures Php.ArrayFilter(e) == Php.Kept(e[0].0, e[0].1) + (Php.Kept(e[1].0, e[1].1) + (Php.Kept(e[2].0, e[2].1)
                                  + (Php.Kept(e[3].0, e[3].1) + (Php.Kept(e[4].0, e[4].1) + Php.Kept(e[5].0, e[5].1)))))
  {
    Php.ArrayFilterEntryByEntry(e);
    assert e[1..][1..] == e[2..] && e[2..][1..] == e[3..] && e[3..][1..] == e[4..];
    assert e[4..][1..] == e[5..] && e[5..][1..] == [];
    assert Php.KeptEach(e[5..]) == Php.Kept(e[5].0, e[5].1);
    assert Php.KeptEach(e[4..]) == Php.Kept(e[4].0, e[4].1) + Php.KeptEach(e[5..]);
    assert Php.KeptEach(e[3..]) == Php.Kept(e[3].0, e[3].1) + Php.KeptEach(e[4..]);
    assert Php.KeptEach(e[2..]) == Php.Kept(e[2].0, e[2].1) + Php.KeptEach(e[3..]);
    assert Php.KeptEach(e[1..]) == Php.Kept(e[1].0, e[1].1) + Php.KeptEach(e[2..]);
  }

  /** A user-defined field equal to "0" passes validation yet never reaches
      the gateway. */
  lemma ZeroUdfIsDropped(d: RegisterOrderData)
    requires d.udf1 == Some("0")
    ensures UdfOk(d.udf1)
    ensures Php.Get(JsonParams(d), "udf1") == None
  {
    JsonParamsContents(d);
    assert Php.AlnumBody("0", 1, 20);
  }
}

=== FILE: register_order_response.dfy ===
/** `RegisterOrderResponse`: what `register.do` answers, read tolerantly from
    the decoded body. Only lower-case keys are looked at. The constructor's
    parameters are typed, so a value of the wrong shape is a `TypeError`. */
module RegisterOrderResponse {
  import opened Wrappers
  import opened Json
  import opened Exceptions
  import Php

  datatype RegisterOrderResponse = RegisterOrderResponse(
    errorCode: Php.PhpInt,
    orderId: Option<string>,
    formUrl: Option<string>,
    errorMessage: Option<string>)

  predicate IsSuccessful(r: RegisterOrderResponse) {
    r.errorCode == 0
  }

  /** The arguments `fromArray()` passes, in the constructor's parameter order:
      `int $errorCode`, `?string $orderId`, `?string $formUrl`. */
  const ARGS: seq<Arg> := [
    Arg("errorCode", IntParam, ["errorCode"]),
    Arg("orderId", StringParam, ["orderId"]),
    Arg("formUrl", StringParam, ["formUrl"])]

  /** The fields the constructor stores once every argument binds: `errorCode`
      defaults to 0, `orderId` and `formUrl` to null, and `errorMessage` is
      never passed. */
  function Read(m: Raw): (r: RegisterOrderResponse)
    ensures r.errorCode == if Isset(m, "errorCode") then ToInt(m["errorCode"]) else 0
    ensures r.orderId == if Isset(m, "orderId") then Some(ToStr(m["orderId"])) else None
    ensures r.formUrl == if Isset(m, "formUrl") then Some(ToStr(m["formUrl"])) else None
    ensures r.errorMessage.None?
  {
    CoalesceOne(m, "errorCode");
    CoalesceOne(m, "orderId");
    CoalesceOne(m, "formUrl");
    RegisterOrderResponse(
      IntOr(m, ["errorCode"], 0),
      OptStr(m, ["orderId"]),
      OptStr(m, ["formUrl"]),
      None)
  }

  /** `fromArray()`: the response, or the `TypeError` of the first argument
      whose parameter refuses the value found. */
  function FromArray(m: Raw): (r: Result<RegisterOrderResponse, Error>)
    ensures r.Success? <==> forall i :: 0 <= i < |ARGS| ==> Binds(m, ARGS[i])
    ensures r.Success? ==> r.value == Read(m)
    ensures r.Failure? ==> exists i :: 0 <= i < |ARGS| && !Binds(m, ARGS[i]) && r.error == TypeError(ARGS[i].name)
                                       && forall j :: 0 <= j < i ==> Binds(m, ARGS[j])
  {
    match Unbound(m, ARGS)
    case Some(name) => Failure(TypeError(name))
    case None => Success(Read(m))
  }

  /** `fromArray()` key by key: a set `errorCode` that is not an integer,
      boolean or integer string is a `TypeError`, then an array or object under
      `orderId`, then under `formUrl`; otherwise the response is read. */
  lemma FromArrayByKey(m: Raw)
    ensures FromArray(m)
         == if Isset(m, "errorCode") && !Accepts(IntParam, m["errorCode"]) then Failure(TypeError("errorCode"))
            else if Isset(m, "orderId") && !Accepts(StringParam, m["orderId"]) then Failure(TypeError("orderId"))
            else if Isset(m, "formUrl") && !Accepts(StringParam, m["formUrl"]) then Failure(TypeError("formUrl"))
            else Success(Read(m))
  {
    CoalesceOne(m, "errorCode");
    CoalesceOne(m, "orderId");
    CoalesceOne(m, "formUrl");
    assert ARGS[0].keys == ["errorCode"] && ARGS[1].keys == ["orderId"] && ARGS[2].keys == ["formUrl"];
    if !Binds(m, ARGS[0]) {
      UnboundAt(m, ARGS, 0);
    } else if !Binds(m, ARGS[1]) {
      UnboundAt(m, ARGS, 1);
    } else if !Binds(m, ARGS[2]) {
      UnboundAt(m, ARGS, 2);
    }
  }

  /** An error code the gateway sends as a non-numeric string cannot be
      passed to `int $errorCode`. */
  lemma NonNumericCodeIsTypeError(m: Raw, s: string)
    requires !IsIntString(s)
    ensures FromArray(m["errorCode" := JStr(s)]) == Failure(TypeError("errorCode"))
  {
    FromArrayByKey(m["errorCode" := JStr(s)]);
  }

  /** An error code beyond the 64-bit range reaches PHP as a float, whether it
      is sent as a number or as a string of digits, and `int $errorCode`
      refuses it. */
  lemma OutOfRangeCodeIsTypeError(m: Raw, n: int)
    requires !Php.IsPhpInt(n)
    ensures FromArray(m["errorCode" := JNum(n)]) == Failure(TypeError("errorCode"))
    ensures FromArray(m["errorCode" := JStr(Php.RenderInt(n))]) == Failure(TypeError("errorCode"))
  {
    IntStringRoundTrip(n);
    FromArrayByKey(m["errorCode" := JNum(n)]);
    FromArrayByKey(m["errorCode" := JStr(Php.RenderInt(n))]);
  }

  /** The body a gateway would send for `r`: the code as a number, the
      optional strings only when present. */
  function Encode(r: RegisterOrderResponse): Raw {
    var m := map["errorCode" := JNum(r.errorCode)];
    var m := if r.orderId.Some? then m["orderId" := JStr(r.orderId.value)] else m;
    if r.formUrl.Some? then m["formUrl" := JStr(r.formUrl.value)] else m
  }

  /** Reading back an encoded response gives it back, as long as it carries no
      error message (which `fromArray()` never fills in). */
  lemma RoundTrip(r: RegisterOrderResponse)
    requires r.errorMessage.None?
    ensures FromArray(Encode(r)) == Success(r)
  {
    var m := Encode(r);
    EncodedKeys(r);
    CoalesceOne(m, "errorCode");
    CoalesceOne(m, "orderId");
    CoalesceOne(m, "formUrl");
    assert ARGS[0].keys == ["errorCode"] && ARGS[1].keys == ["orderId"] && ARGS[2].keys == ["formUrl"];
    assert Binds(m, ARGS[0]) && Binds(m, ARGS[1]) && Binds(m, ARGS[2]);
    assert Read(m) == r;
  }

  /** What each key of an encoded response holds. */
  lemma EncodedKeys(r: RegisterOrderResponse)
    ensures Isset(Encode(r), "errorCode") && Encode(r)["errorCode"] == JNum(r.errorCode)
    ensures Isset(Encode(r), "orderId") <==> r.orderId.Some?
    ensures r.orderId.Some? ==> Encode(r)["orderId"] == JStr(r.orderId.value)
    ensures Isset(Encode(r), "formUrl") <==> r.formUrl.Some?
    ensures r.formUrl.Some? ==> Encode(r)["formUrl"] == JStr(r.formUrl.value)
  {
  }

  /** A capitalised `ErrorCode` is ignored, whatever it holds. */
  lemma CapitalisedErrorCodeIgnored(m: Raw, v: JVal)
    requires "ErrorCode" !in m
    ensures FromArray(m["ErrorCode" := v]) == FromArray(m)
  {
    var m' := m["ErrorCode" := v];
    assert Isset(m', "errorCode") == Isset(m, "errorCode");
    assert Isset(m', "orderId") == Isset(m, "orderId");
    assert Isset(m', "formUrl") == Isset(m, "formUrl");
    FromArrayByKey(m);
    FromArrayByKey(m');
  }

  /** A body carrying an error message still reads with no message. */
  lemma ErrorMessageNeverRead(m: Raw, msg: string)
    ensures FromArray(m["errorMessage" := JStr(msg)]) == FromArray(m - {"errorMessage"})
    ensures FromArray(m["errorMessage" := JStr(msg)]).Success?
            ==> FromArray(m["errorMessage" := JStr(msg)]).value.errorMessage.None?
  {
    var m1 := m["errorMessage" := JStr(msg)];
    var m2 := m - {"errorMessage"};
    assert Isset(m1, "errorCode") == Isset(m2, "errorCode");
    assert Isset(m1, "orderId") == Isset(m2, "orderId");
    assert Isset(m1, "formUrl") == Isset(m2, "formUrl");
    FromArrayByKey(m1);
    FromArrayByKey(m2);
  }

  /** An empty body reads as a successful response with nothing in it. */
  lemma EmptyBodyIsSuccess()
    ensures FromArray(map[]) == Success(RegisterOrderResponse(0, None, None, None))
    ensures IsSuccessful(FromArray(map[]).value)
  {
    FromArrayByKey(map[]);
  }
}

=== FILE: satim.dfy ===
/** `Satim`: the fluent builder in front of the client. It collects the
    fields of one registration, fills in defaults when `register()` is
    called, and forgets them only once the client call has returned. Every
    operation is a transition from one builder state to the next, paired with
    what the call returns or throws. */
module Satim {
  import opened Wrappers
  import Php
  import Json
  import opened Exceptions
  import Gateway
  import OrderNumbers
  import RegisterOrderData
  import ConfirmOrderData
  import RefundOrderData
  import RegisterOrderResponse
  import ConfirmOrderResponse
  import RefundOrderResponse
  import SatimClient

  /** The eleven nullable fields a registration is built from. */
  datatype Pending = Pending(
    amount: Option<Php.PhpInt>,
    orderNumber: Option<string>,
    returnUrl: Option<string>,
    failUrl: Option<string>,
    description: Option<string>,
    language: Option<string>,
    udf1: Option<string>,
    udf2: Option<string>,
    udf3: Option<string>,
    udf4: Option<string>,
    udf5: Option<string>)

  const NOTHING_PENDING: Pending := Pending(None, None, None, None, None, None, None, None, None, None, None)

  /** The builder: its constructor arguments and the pending fields. */
  datatype Satim = Satim(
    client: SatimClient.Config,
    defaultLanguage: string,
    currency: string,
    terminalId: string,
    pending: Pending)

  /** `new Satim(...)`: nothing pending yet. */
  function New(client: SatimClient.Config, defaultLanguage: string, currency: string, terminalId: string): (s: Satim)
    ensures s.pending == NOTHING_PENDING
    ensures s.client == client && s.defaultLanguage == defaultLanguage
    ensures s.currency == currency && s.terminalId == terminalId
  {
    Satim(client, defaultLanguage, currency, terminalId, NOTHING_PENDING)
  }

  // ------------------------------------------------------------------ setters

  /** The string-valued pending fields, one per setter. */
  datatype Field = OrderNumber | ReturnUrl | FailUrl | Description | Language | Udf1 | Udf2 | Udf3 | Udf4 | Udf5

  function Get(p: Pending, f: Field): Option<string> {
    match f
    case OrderNumber => p.orderNumber
    case ReturnUrl => p.returnUrl
    case FailUrl => p.failUrl
    case Description => p.description
    case Language => p.language
    case Udf1 => p.udf1
    case Udf2 => p.udf2
    case Udf3 => p.udf3
    case Udf4 => p.udf4
    case Udf5 => p.udf5
  }

  /** Two builders with the same constructor arguments. */
  predicate SameConfig(s: Satim, t: Satim) {
    s.client == t.client && s.defaultLanguage == t.defaultLanguage
    && s.currency == t.currency && s.terminalId == t.terminalId
  }

  /** `orderNumber()`, `returnUrl()`, `failUrl()`, `description()`,
      `language()` and `udf1()`..`udf5()`: store the value, as given. */
  function Set(s: Satim, f: Field, v: string): (r: Satim)
    ensures Get(r.pending, f) == Some(v)
    ensures forall g :: g != f ==> Get(r.pending, g) == Get(s.pending, g)
    ensures r.pending.amount == s.pending.amount
    ensures SameConfig(r, s)
  {
    var p := s.pending;
    var p := match f
      case OrderNumber => p.(orderNumber := Some(v))
      case ReturnUrl => p.(returnUrl := Some(v))
      case FailUrl => p.(failUrl := Some(v))
      case Description => p.(description := Some(v))
      case Language => p.(language := Some(v))
      case Udf1 => p.(udf1 := Some(v))
      case Udf2 => p.(udf2 := Some(v))
      case Udf3 => p.(udf3 := Some(v))
      case Udf4 => p.(udf4 := Some(v))
      case Udf5 => p.(udf5 := Some(v));
    s.(pending := p)
  }

  /** `convertToCents()` on a whole number of dinars, for amounts whose
      cents still fit a PHP integer; beyond that the product is a float and
      the cast does not give it back. */
  function ConvertToCents(dinars: int): (cents: int)
    requires Php.IsPhpInt(100 * dinars)
    ensures cents % 100 == 0 && cents / 100 == dinars
    ensures Php.IsPhpInt(cents)
  {
    dinars * 100
  }

  /** `amount()`: store the amount in cents. */
  function SetAmount(s: Satim, dinars: int): (r: Satim)
    requires Php.IsPhpInt(100 * dinars)
    ensures r.pending.amount == Some(100 * dinars)
    ensures forall g :: Get(r.pending, g) == Get(s.pending, g)
    ensures SameConfig(r, s)
  {
    s.(pending := s.pending.(amount := Some(ConvertToCents(dinars))))
  }

  /** Setting two different fields gives the same builder in either order. */
  lemma SettersCommute(s: Satim, f: Field, g: Field, v: string, w: string)
    requires f != g
    ensures Set(Set(s, f, v), g, w) == Set(Set(s, g, w), f, v)
  {
    var a := Set(Set(s, f, v), g, w);
    var b := Set(Set(s, g, w), f, v);
    forall h ensures Get(a.pending, h) == Get(b.pending, h) {
    }
    PendingEq(a.pending, b.pending);
  }

  /** Two pending records agreeing on the amount and every field are equal. */
  lemma PendingEq(p: Pending, q: Pending)
    requires p.amount == q.amount
    requires forall h :: Get(p, h) == Get(q, h)
    ensures p == q
  {
    assert Get(p, OrderNumber) == Get(q, OrderNumber);
    assert Get(p, ReturnUrl) == Get(q, ReturnUrl);
    assert Get(p, FailUrl) == Get(q, FailUrl);
    assert Get(p, Description) == Get(q, Description);
    assert Get(p, Language) == Get(q, Language);
    assert Get(p, Udf1) == Get(q, Udf1);
    assert Get(p, Udf2) == Get(q, Udf2);
    assert Get(p, Udf3) == Get(q, Udf3);
    assert Get(p, Udf4) == Get(q, Udf4);
    assert Get(p, Udf5) == Get(q, Udf5);
  }

  /** `reset()`: every pending field back to null, the configuration kept. */
  function Reset(s: Satim): (r: Satim)
    ensures r.pending.amount.None?
    ensures forall g :: Get(r.pending, g).None?
    ensures SameConfig(r, s)
  {
    s.(pending := NOTHING_PENDING)
  }

  // ----------------------------------------------------------------- register

  /** The constructor arguments `register()` passes: the pending fields, a
      generated order number and the default language where none was set, and
      the configured currency and terminal. PHP binds the arguments in order,
      so a null amount (the second) is reported before a null return URL (the
      fourth). `drawn` is the value `random_int` would return. */
  function RegisterArgs(s: Satim, drawn: nat): (r: Result<RegisterOrderData.RegisterOrderData, Error>)
    requires OrderNumbers.LOWEST <= drawn <= OrderNumbers.HIGHEST
    ensures s.pending.amount.None? ==> r == Failure(TypeError("amount"))
    ensures s.pending.amount.Some? && s.pending.returnUrl.None? ==> r == Failure(TypeError("returnUrl"))
    ensures r.Success? <==> s.pending.amount.Some? && s.pending.returnUrl.Some?
    ensures r.Success? ==> && r.value.amount == s.pending.amount.value
                           && r.value.returnUrl == s.pending.returnUrl.value
                           && r.value.currency == s.currency
                           && r.value.terminalId == s.terminalId
                           && r.value.language == s.pending.language.GetOr(s.defaultLanguage)
                           && r.value.orderNumber
                              == s.pending.orderNumber.GetOr(OrderNumbers.GenerateOrderNumber(drawn))
                           && r.value.failUrl == s.pending.failUrl
                           && r.value.description == s.pending.description
                           && RegisterOrderData.Udfs(r.value)
                              == [s.pending.udf1, s.pending.udf2, s.pending.udf3, s.pending.udf4, s.pending.udf5]
  {
    var p := s.pending;
    if p.amount.None? then Failure(TypeError("amount"))
    else if p.returnUrl.None? then Failure(TypeError("returnUrl"))
    else
      var orderNumber := if p.orderNumber.Some? then p.orderNumber.value
                         else OrderNumbers.GenerateOrderNumber(drawn);
      Success(RegisterOrderData.RegisterOrderData(
        orderNumber, p.amount.value, s.currency, p.returnUrl.value,
        p.language.GetOr(s.defaultLanguage), s.terminalId,
        p.failUrl, p.description, p.udf1, p.udf2, p.udf3, p.udf4, p.udf5))
  }

  /** `register()`: build and validate the data, call the client, and reset
      the builder only when the client returned a response. */
  function Register(s: Satim, drawn: nat, validUrl: string -> bool, transport: SatimClient.Request -> Json.Raw)
    : (r: (Satim, Result<RegisterOrderResponse.RegisterOrderResponse, Error>))
    requires OrderNumbers.LOWEST <= drawn <= OrderNumbers.HIGHEST
    ensures r.1.Success? ==> r.0 == Reset(s)
    ensures r.1.Failure? ==> r.0 == s
    ensures RegisterArgs(s, drawn).Failure? ==> r.1 == Failure(RegisterArgs(s, drawn).error)
    ensures RegisterArgs(s, drawn).Success? && RegisterOrderData.Create(RegisterArgs(s, drawn).value, validUrl).Failure?
            ==> r.1 == Failure(Thrown(RegisterOrderData.Create(RegisterArgs(s, drawn).value, validUrl).error))
    ensures RegisterArgs(s, drawn).Success? && RegisterOrderData.Create(RegisterArgs(s, drawn).value, validUrl).Success?
            ==> r.1 == SatimClient.Register(s.client, RegisterOrderData.Create(RegisterArgs(s, drawn).value, validUrl).value, transport)
    ensures r.1.Success? <==>
      && RegisterArgs(s, drawn).Success?
      && RegisterOrderData.Create(RegisterArgs(s, drawn).value, validUrl).Success?
      && SatimClient.Register(s.client, RegisterOrderData.Create(RegisterArgs(s, drawn).value, validUrl).value, transport).Success?
    ensures r.1.Success? ==>
      r.1.value == SatimClient.Register(s.client, RegisterOrderData.Create(RegisterArgs(s, drawn).value, validUrl).value, transport).value
  {
    match RegisterArgs(s, drawn)
    case Failure(e) => (s, Failure(e))
    case Success(args) =>
      match RegisterOrderData.Create(args, validUrl)
      case Failure(e) => (s, Failure(Thrown(e)))
      case Success(data) =>
        match SatimClient.Register(s.client, data, transport)
        case Failure(e) => (s, Failure(e))
        case Success(response) => (Reset(s), Success(response))
  }

  /** Without an order number of its own, the generated one always passes the
      first validation rule. */
  lemma GeneratedOrderNumberPasses(s: Satim, drawn: nat)
    requires OrderNumbers.LOWEST <= drawn <= OrderNumbers.HIGHEST
    requires s.pending.orderNumber.None?
    requires RegisterArgs(s, drawn).Success?
    ensures Php.MatchesAlnum(RegisterOrderData.Normalize(RegisterArgs(s, drawn).value).orderNumber, 1, 10)
  {
    OrderNumbers.GeneratedNumberIsValidOrderNumber(drawn);
  }

  /** A successful registration consumes the amount: registering again
      without setting a new one is a type error, and changes nothing. */
  lemma SecondRegisterNeedsAmount(
    s: Satim, drawn: nat, drawn2: nat, validUrl: string -> bool, transport: SatimClient.Request -> Json.Raw)
    requires OrderNumbers.LOWEST <= drawn <= OrderNumbers.HIGHEST
    requires OrderNumbers.LOWEST <= drawn2 <= OrderNumbers.HIGHEST
    requires Register(s, drawn, validUrl, transport).1.Success?
    ensures var t := Register(s, drawn, validUrl, transport).0;
      Register(t, drawn2, validUrl, transport) == (t, Failure(TypeError("amount")))
  {
  }

  /** A registration rejected by validation can be fixed and retried: the
      pending fields are all still there. */
  lemma ValidationFailureKeepsFields(s: Satim, drawn: nat, validUrl: string -> bool, transport: SatimClient.Request -> Json.Raw)
    requires OrderNumbers.LOWEST <= drawn <= OrderNumbers.HIGHEST
    requires RegisterArgs(s, drawn).Success?
    requires RegisterOrderData.Create(RegisterArgs(s, drawn).value, validUrl).Failure?
    ensures Register(s, drawn, validUrl, transport).0.pending == s.pending
    ensures Register(s, drawn, validUrl, transport).1.Failure?
    ensures Register(s, drawn, validUrl, transport).1.error.Thrown?
    ensures Register(s, drawn, validUrl, transport).1.error.exception.kind == Validation
  {
  }

  // --------------------------------------------------------- confirm, refund

  /** `confirm()`: the language argument, else the default; the builder is
      left as it was. */
  function Confirm(s: Satim, mdOrder: string, language: Option<string>, transport: SatimClient.Request -> Json.Raw)
    : (r: (Satim, Result<ConfirmOrderResponse.ConfirmOrderResponse, Error>))
    ensures r.0 == s
    ensures var d := ConfirmOrderData.ConfirmOrderData(mdOrder, language.GetOr(s.defaultLanguage));
      && (!ConfirmOrderData.Valid(d) ==> r.1 == Failure(Thrown(ConfirmOrderData.Create(d).error)))
      && (ConfirmOrderData.Valid(d) ==> r.1 == SatimClient.Confirm(s.client, d, transport))
      && (r.1.Success? <==> ConfirmOrderData.Valid(d) && SatimClient.Confirm(s.client, d, transport).Success?)
      && (r.1.Success? ==> r.1.value
                           == ConfirmOrderResponse.Read(transport(SatimClient.ConfirmRequest(s.client, d))))
  {
    var d := ConfirmOrderData.ConfirmOrderData(mdOrder, language.GetOr(s.defaultLanguage));
    match ConfirmOrderData.Create(d)
    case Failure(e) => (s, Failure(Thrown(e)))
    case Success(data) => (s, SatimClient.Confirm(s.client, data, transport))
  }

  /** `refund()`: the amount converted to cents; the builder is left as it
      was. */
  function Refund(s: Satim, orderId: string, dinars: int, transport: SatimClient.Request -> Json.Raw)
    : (r: (Satim, Result<RefundOrderResponse.RefundOrderResponse, Error>))
    requires Php.IsPhpInt(100 * dinars)
    ensures r.0 == s
    ensures var d := RefundOrderData.RefundOrderData(orderId, 100 * dinars);
      && (!RefundOrderData.Valid(d) ==> r.1 == Failure(Thrown(RefundOrderData.Create(d).error)))
      && (RefundOrderData.Valid(d) ==> r.1 == SatimClient.Refund(s.client, d, transport))
      && (r.1.Success? <==> RefundOrderData.Valid(d) && SatimClient.Refund(s.client, d, transport).Success?)
      && (r.1.Success? ==> r.1.value
                           == RefundOrderResponse.Read(transport(SatimClient.RefundRequest(s.client, d))))
  {
    var d := RefundOrderData.RefundOrderData(orderId, ConvertToCents(dinars));
    assert d == RefundOrderData.RefundOrderData(orderId, 100 * dinars);
    match RefundOrderData.Create(d)
    case Failure(e) => (s, Failure(Thrown(e)))
    case Success(data) => (s, SatimClient.Refund(s.client, data, transport))
  }

  /** A refund of fewer than 50 dinars is rejected before anything is sent;
      any whole number of dinars from 50 up passes the amount rules. */
  lemma RefundDinarsRule(s: Satim, orderId: string, dinars: int, transport: SatimClient.Request -> Json.Raw)
    requires !Php.Empty(orderId)
    requires Php.IsPhpInt(100 * dinars)
    ensures dinars < 50 ==> Refund(s, orderId, dinars, transport).1
                            == Failure(Thrown(NewException(Validation, Gateway.MSG_AMOUNT_MIN)))
    ensures dinars >= 50 ==> RefundOrderData.Valid(RefundOrderData.RefundOrderData(orderId, 100 * dinars))
  {
  }
}

=== FILE: satim_client.dfy ===
/** `SatimClient`: builds the query for each endpoint, hands it to the
    transport, and turns a non-zero gateway code into an exception whose
    class depends on the endpoint. The HTTP round trip is the `transport`
    parameter: whatever body the gateway answers with, already decoded. */
module SatimClient {
  import opened Wrappers
  import Php
  import opened Json
  import opened Gateway
  import opened Exceptions
  import RegisterOrderData
  import ConfirmOrderData
  import RefundOrderData
  import RegisterOrderResponse
  import ConfirmOrderResponse
  import RefundOrderResponse

  /** The constructor arguments. Only the URL and the credentials reach the
      model; the SSL flag and the timeouts configure the transport. */
  datatype Config = Config(
    apiUrl: string,
    username: string,
    password: string,
    verifySSL: bool,
    timeout: Php.PhpInt,
    connectTimeout: Php.PhpInt)

  /** A GET request: the URL and its query parameters, in order. */
  datatype Request = Request(url: string, query: Params)

  datatype Endpoint = RegisterDo | AcknowledgeTransactionDo | RefundDo

  /** The path of each endpoint below the API URL. */
  function Path(e: Endpoint): string {
    match e
    case RegisterDo => "/register.do"
    case AcknowledgeTransactionDo => "/public/acknowledgeTransaction.do"
    case RefundDo => "/refund.do"
  }

  function Credentials(cfg: Config): Params {
    [("userName", PStr(cfg.username)), ("password", PStr(cfg.password))]
  }

  lemma CredentialsKeys(cfg: Config)
    ensures Php.Keys(Credentials(cfg)) == {"userName", "password"}
  {
    var c := Credentials(cfg);
    assert c[0].0 == "userName" && c[1].0 == "password";
  }

  /** `get("{apiUrl}{path}", array_merge(credentials, data))`. Since no data
      key is a credential key, the merge is the credentials followed by the
      data, unchanged. */
  function BuildRequest(cfg: Config, e: Endpoint, data: Params): (r: Request)
    requires Php.KeysUnique(data)
    requires !Php.HasKey(data, "userName") && !Php.HasKey(data, "password")
    ensures r.url == cfg.apiUrl + Path(e)
    ensures r.query == Credentials(cfg) + data
    ensures Php.Get(r.query, "userName") == Some(PStr(cfg.username))
    ensures Php.Get(r.query, "password") == Some(PStr(cfg.password))
  {
    CredentialsKeys(cfg);
    forall j | 0 <= j < |data| ensures !Php.HasKey(Credentials(cfg), data[j].0) {
      assert data[j].0 in Php.Keys(data);
    }
    Php.MergeDisjoint(Credentials(cfg), data);
    Php.GetAppend(Credentials(cfg), data, "userName");
    Php.GetAppend(Credentials(cfg), data, "password");
    Request(cfg.apiUrl + Path(e), Php.Merge(Credentials(cfg), data))
  }

  function RegisterRequest(cfg: Config, d: RegisterOrderData.RegisterOrderData): (r: Request)
    ensures r.url == cfg.apiUrl + "/register.do"
    ensures r.query == Credentials(cfg) + RegisterOrderData.ToArray(d)
  {
    RegisterOrderData.ToArrayKeys(d);
    BuildRequest(cfg, RegisterDo, RegisterOrderData.ToArray(d))
  }

  function ConfirmRequest(cfg: Config, d: ConfirmOrderData.ConfirmOrderData): (r: Request)
    ensures r.url == cfg.apiUrl + "/public/acknowledgeTransaction.do"
    ensures r.query == Credentials(cfg) + ConfirmOrderData.ToArray(d)
  {
    ConfirmOrderData.ToArrayContents(d);
    BuildRequest(cfg, AcknowledgeTransactionDo, ConfirmOrderData.ToArray(d))
  }

  function RefundRequest(cfg: Config, d: RefundOrderData.RefundOrderData): (r: Request)
    ensures r.url == cfg.apiUrl + "/refund.do"
    ensures r.query == Credentials(cfg) + RefundOrderData.ToArray(d)
  {
    RefundOrderData.ToArrayContents(d);
    BuildRequest(cfg, RefundDo, RefundOrderData.ToArray(d))
  }

  // ------------------------------------------------------------ error lookup

  const UNKNOWN_ERROR: string := "Unknown error"

  /** `getErrorCode()`: `errorCode`, else `ErrorCode`, else 0, cast to int. */
  function GetErrorCode(m: Raw): (r: int)
    ensures Php.IsPhpInt(r)
    ensures r == if Isset(m, "errorCode") then ToInt(m["errorCode"])
                 else if Isset(m, "ErrorCode") then ToInt(m["ErrorCode"]) else 0
  {
    CoalesceTwo(m, "errorCode", "ErrorCode");
    ToInt(Coalesce(m, ["errorCode", "ErrorCode"]).GetOr(JNum(0)))
  }

  /** `getErrorMessage()`: `errorMessage`, else `ErrorMessage`, else
      "Unknown error". The method is declared to return `string`, so a
      scalar found there is converted and an array or object is a
      `TypeError`. */
  function GetErrorMessage(m: Raw): (r: Result<string, Error>)
    ensures r.Failure? <==> if Isset(m, "errorMessage") then !Accepts(StringParam, m["errorMessage"])
                            else Isset(m, "ErrorMessage") && !Accepts(StringParam, m["ErrorMessage"])
    ensures r.Failure? ==> r.error == TypeError("getErrorMessage")
    ensures r.Success? ==> r.value == if Isset(m, "errorMessage") then ToStr(m["errorMessage"])
                                      else if Isset(m, "ErrorMessage") then ToStr(m["ErrorMessage"]) else UNKNOWN_ERROR
  {
    CoalesceTwo(m, "errorMessage", "ErrorMessage");
    match Coalesce(m, ["errorMessage", "ErrorMessage"])
    case Some(v) => if Accepts(StringParam, v) then Success(ToStr(v)) else Failure(TypeError("getErrorMessage"))
    case None => Success(UNKNOWN_ERROR)
  }

  /** A null under either spelling is the same as no key at all. */
  lemma NullIsMissing(m: Raw)
    ensures GetErrorCode(m["errorCode" := JNull]) == GetErrorCode(m - {"errorCode"})
    ensures GetErrorMessage(m["errorMessage" := JNull]) == GetErrorMessage(m - {"errorMessage"})
  {
    var a := m["errorCode" := JNull];
    var b := m - {"errorCode"};
    assert Isset(a, "ErrorCode") == Isset(b, "ErrorCode");
    assert Isset(a, "ErrorCode") ==> a["ErrorCode"] == b["ErrorCode"];
    var c := m["errorMessage" := JNull];
    var d := m - {"errorMessage"};
    assert Isset(c, "ErrorMessage") == Isset(d, "ErrorMessage");
    assert Isset(c, "ErrorMessage") ==> c["ErrorMessage"] == d["ErrorMessage"];
  }

  // ---------------------------------------------------------- classification

  /** The codes each endpoint reports as payment errors. */
  function PaymentCodes(e: Endpoint): set<int> {
    match e
    case RegisterDo => {1, 3, 4, 14}
    case AcknowledgeTransactionDo => {2, 6}
    case RefundDo => {6}
  }

  const ACCESS_DENIED: int := 5

  /** `handleRegisterErrors`, `handleConfirmErrors` and `handleRefundErrors`:
      nothing for code 0; otherwise an exception carrying the looked-up code,
      the looked-up message and the whole body, of the authentication class
      for code 5, the payment class for the endpoint's payment codes, and the
      base class for anything else. A message that cannot be returned as a
      string raises its `TypeError` before any exception is built. */
  function HandleErrors(e: Endpoint, m: Raw): (r: Outcome<Error>)
    ensures r.Pass? <==> GetErrorCode(m) == 0
    ensures r.Fail? && GetErrorMessage(m).Failure? ==> r.error == GetErrorMessage(m).error
    ensures r.Fail? && GetErrorMessage(m).Success? ==>
              && r.error.Thrown?
              && r.error.exception.errorCode == GetErrorCode(m)
              && r.error.exception.message == GetErrorMessage(m).value
              && r.error.exception.context == Some(m)
              && r.error.exception.code == 0
              && r.error.exception.previous.None?
  {
    var code := GetErrorCode(m);
    if code == 0 then Pass
    else
      match GetErrorMessage(m)
      case Failure(err) => Fail(err)
      case Success(message) =>
        if code == ACCESS_DENIED then Fail(Thrown(NewException(Authentication, message, code, Some(m))))
        else if code in PaymentCodes(e) then Fail(Thrown(NewException(Payment, message, code, Some(m))))
        else Fail(Thrown(NewException(Generic, message, code, Some(m))))
  }

  /** The class each documented code is thrown as, per endpoint, listed as the
      endpoint comments in the client describe them. */
  const DOCUMENTED: seq<(Endpoint, int, ErrorKind)> := [
    (RegisterDo, 1, Payment), (RegisterDo, 3, Payment), (RegisterDo, 4, Payment),
    (RegisterDo, 5, Authentication), (RegisterDo, 7, Generic), (RegisterDo, 14, Payment),
    (AcknowledgeTransactionDo, 2, Payment), (AcknowledgeTransactionDo, 5, Authentication),
    (AcknowledgeTransactionDo, 6, Payment), (AcknowledgeTransactionDo, 7, Generic),
    (RefundDo, 5, Authentication), (RefundDo, 6, Payment), (RefundDo, 7, Generic)]

  /** A body whose only content is a gateway code. */
  function CodeBody(code: int): Raw {
    map["errorCode" := JNum(code)]
  }

  /** Every documented (endpoint, code) pair is thrown as the documented class. */
  lemma DocumentedCodesClassified(i: nat)
    requires i < |DOCUMENTED|
    ensures var (e, code, kind) := DOCUMENTED[i];
      HandleErrors(e, CodeBody(code)) == Fail(Thrown(NewException(kind, UNKNOWN_ERROR, code, Some(CodeBody(code)))))
  {
  }

  /** Code 5 is an authentication error on every endpoint, whenever the
      message can be read. */
  lemma AccessDeniedEverywhere(e: Endpoint, m: Raw)
    requires GetErrorCode(m) == ACCESS_DENIED
    ensures HandleErrors(e, m).Fail?
    ensures HandleErrors(e, m).error.Thrown? <==> GetErrorMessage(m).Success?
    ensures HandleErrors(e, m).error.Thrown? ==> HandleErrors(e, m).error.exception.kind == Authentication
  {
  }

  /** Once the message is read, the class is decided by the code alone:
      payment exactly for the endpoint's payment codes, generic for every
      other non-zero code but 5. */
  lemma ClassificationByCode(e: Endpoint, m: Raw)
    requires GetErrorCode(m) != 0
    requires GetErrorMessage(m).Success?
    ensures HandleErrors(e, m).Fail? && HandleErrors(e, m).error.Thrown?
    ensures HandleErrors(e, m).error.exception.kind == Payment <==> GetErrorCode(m) in PaymentCodes(e)
    ensures HandleErrors(e, m).error.exception.kind == Generic
        <==> GetErrorCode(m) != ACCESS_DENIED && GetErrorCode(m) !in PaymentCodes(e)
    ensures HandleErrors(e, m).error.exception.kind != Validation
  {
    assert ACCESS_DENIED !in PaymentCodes(e);
  }

  /** A non-zero code whose message is an array never gets as far as an
      exception: the string return type of `getErrorMessage()` refuses it. */
  lemma ArrayMessageIsTypeError(e: Endpoint, m: Raw, items: seq<JVal>)
    requires GetErrorCode(m) != 0
    ensures HandleErrors(e, m["errorMessage" := JArr(items)]) == Fail(TypeError("getErrorMessage"))
  {
    var m' := m["errorMessage" := JArr(items)];
    assert Isset(m', "errorCode") == Isset(m, "errorCode");
    assert Isset(m', "ErrorCode") == Isset(m, "ErrorCode");
    assert Isset(m', "errorCode") ==> m'["errorCode"] == m["errorCode"];
    assert Isset(m', "ErrorCode") ==> m'["ErrorCode"] == m["ErrorCode"];
    assert GetErrorCode(m') == GetErrorCode(m);
  }

  // ------------------------------------------------------------ the calls

  /** `register()`: the exception for a non-zero code, else whatever
      `fromArray()` makes of the body: the response or a `TypeError`. */
  function Register(cfg: Config, d: RegisterOrderData.RegisterOrderData, transport: Request -> Raw)
    : (r: Result<RegisterOrderResponse.RegisterOrderResponse, Error>)
    ensures var m := transport(RegisterRequest(cfg, d));
      && (GetErrorCode(m) != 0 ==> r == Failure(HandleErrors(RegisterDo, m).error))
      && (GetErrorCode(m) == 0 ==> r == RegisterOrderResponse.FromArray(m))
      && (r.Success? ==> GetErrorCode(m) == 0 && r.value == RegisterOrderResponse.Read(m))
  {
    var m := transport(RegisterRequest(cfg, d));
    match HandleErrors(RegisterDo, m)
    case Fail(err) => Failure(err)
    case Pass => RegisterOrderResponse.FromArray(m)
  }

  function Confirm(cfg: Config, d: ConfirmOrderData.ConfirmOrderData, transport: Request -> Raw)
    : (r: Result<ConfirmOrderResponse.ConfirmOrderResponse, Error>)
    ensures var m := transport(ConfirmRequest(cfg, d));
      && (GetErrorCode(m) != 0 ==> r == Failure(HandleErrors(AcknowledgeTransactionDo, m).error))
      && (GetErrorCode(m) == 0 ==> r == ConfirmOrderResponse.FromArray(m))
      && (r.Success? ==> GetErrorCode(m) == 0 && r.value == ConfirmOrderResponse.Read(m))
  {
    var m := transport(ConfirmRequest(cfg, d));
    match HandleErrors(AcknowledgeTransactionDo, m)
    case Fail(err) => Failure(err)
    case Pass => ConfirmOrderResponse.FromArray(m)
  }

  function Refund(cfg: Config, d: RefundOrderData.RefundOrderData, transport: Request -> Raw)
    : (r: Result<RefundOrderResponse.RefundOrderResponse, Error>)
    ensures var m := transport(RefundRequest(cfg, d));
      && (GetErrorCode(m) != 0 ==> r == Failure(HandleErrors(RefundDo, m).error))
      && (GetErrorCode(m) == 0 ==> r == RefundOrderResponse.FromArray(m))
      && (r.Success? ==> GetErrorCode(m) == 0 && r.value == RefundOrderResponse.Read(m))
  {
    var m := transport(RefundRequest(cfg, d));
    match HandleErrors(RefundDo, m)
    case Fail(err) => Failure(err)
    case Pass => RefundOrderResponse.FromArray(m)
  }

  // ------------------------------------------- client check vs. response DTOs

  /** A register response that got past the client is successful: when the
      client reads 0, the response's own lower-case lookup reads 0 too. */
  lemma RegisterSuccessIsSuccessful(cfg: Config, d: RegisterOrderData.RegisterOrderData, transport: Request -> Raw)
    requires Register(cfg, d, transport).Success?
    ensures RegisterOrderResponse.IsSuccessful(Register(cfg, d, transport).value)
  {
  }

  /** The same holds for refunds. */
  lemma RefundSuccessIsSuccessful(cfg: Config, d: RefundOrderData.RefundOrderData, transport: Request -> Raw)
    requires Refund(cfg, d, transport).Success?
    ensures RefundOrderResponse.IsSuccessful(Refund(cfg, d, transport).value)
  {
  }

  /** For confirmations it holds when the body spells the code one way only,
      or both ways alike. */
  lemma ConfirmSuccessIsSuccessful(m: Raw)
    requires GetErrorCode(m) == 0
    requires Isset(m, "errorCode") && Isset(m, "ErrorCode") ==> ToInt(m["errorCode"]) == ToInt(m["ErrorCode"])
    ensures ConfirmOrderResponse.IsSuccessful(ConfirmOrderResponse.Read(m))
  {
  }

  /** But the client prefers `errorCode` and the response prefers `ErrorCode`:
      a body with `errorCode` 0 and `ErrorCode` 5 passes the client's check and
      is returned as an unsuccessful response. */
  lemma ConfirmLookupsDisagree(m: Raw)
    requires Isset(m, "errorCode") && ToInt(m["errorCode"]) == 0
    requires Isset(m, "ErrorCode") && ToInt(m["ErrorCode"]) == 5
    ensures HandleErrors(AcknowledgeTransactionDo, m).Pass?
    ensures ConfirmOrderResponse.Read(m).errorCode == 5
    ensures ConfirmOrderResponse.FromArray(m).Success? ==> !ConfirmOrderResponse.IsSuccessful(ConfirmOrderResponse.FromArray(m).value)
  {
  }

  /** Such a body exists. */
  lemma DisagreeingBodyExists()
    ensures var m := map["errorCode" := JNum(0), "ErrorCode" := JNum(5)];
      && Isset(m, "errorCode") && ToInt(m["errorCode"]) == 0
      && Isset(m, "ErrorCode") && ToInt(m["ErrorCode"]) == 5
  {
  }

  /** A code sent as a non-numeric string casts to 0 in the client's own
      check, so the body passes it, and then `int $errorCode` of the response
      refuses the same value: the registration ends in a `TypeError`. */
  lemma NonNumericCodePassesThenThrows(cfg: Config, d: RegisterOrderData.RegisterOrderData,
                                       transport: Request -> Raw, s: string)
    requires !IsIntString(s)
    requires transport(RegisterRequest(cfg, d)) == map["errorCode" := JStr(s)]
    ensures HandleErrors(RegisterDo, map["errorCode" := JStr(s)]).Pass?
    ensures Register(cfg, d, transport) == Failure(TypeError("errorCode"))
  {
    RegisterOrderResponse.NonNumericCodeIsTypeError(map[], s);
  }

  /** A non-zero multiple of 2^64 (2^64 itself, say, which `json_decode`
      holds exactly as a float) wraps to 0 under the client's `(int)` cast, so
      the body passes the check; the response's `int $errorCode` then
      refuses it. */
  lemma WrappedCodePassesThenThrows(cfg: Config, d: RegisterOrderData.RegisterOrderData,
                                    transport: Request -> Raw, n: int)
    requires n != 0 && n % Php.TWO_POW_64 == 0
    requires transport(RegisterRequest(cfg, d)) == map["errorCode" := JNum(n)]
    ensures HandleErrors(RegisterDo, map["errorCode" := JNum(n)]).Pass?
    ensures Register(cfg, d, transport) == Failure(TypeError("errorCode"))
  {
    var m := map["errorCode" := JNum(n)];
    Php.WrapMultiple(n);
    assert GetErrorCode(m) == 0;
    RegisterOrderResponse.FromArrayByKey(m);
  }

  /** A code beyond the 64-bit range sent as a string of digits clamps to the
      nearest end of the range in the client's check, so it is never taken
      for success. */
  lemma OutOfRangeCodeStringClamped(m: Raw, n: int)
    requires !Php.IsPhpInt(n)
    ensures GetErrorCode(m["errorCode" := JStr(Php.RenderInt(n))])
         == if n > 0 then Php.PHP_INT_MAX else Php.PHP_INT_MIN
  {
    IntStringRoundTrip(n);
  }
}

=== FILE: wrappers.dfy ===
/** Failure-compatible wrappers shared by the whole model: PHP's nullable values
    become `Option`, a constructor or call that may throw becomes `Result`, and a
    check that either passes or throws becomes `Outcome`. */
module Wrappers {

  datatype Option<+T> = None | Some(value: T) {

    /** PHP `$x ?? $default` once `$x` has been looked up. */
    function GetOr(default: T): T {
      match this
      case Some(v) => v
      case None => default
    }
  }

  datatype Result<+R, +E> = Success(value: R) | Failure(error: E)

  datatype Outcome<+E> = Pass | Fail(error: E)
}
